=== FILE: README.md ===
# zeusRMBS collateral waterfall, modelled in Dafny

zeusRMBS builds the collateral cash-flow table ("waterfall", or amortization
table) of a residential mortgage pool. A pool is summarised by its original
balance, pass-through coupon, weighted-average coupon (WAC), weighted-average
maturity (WAM), a PSA speed multiplier and a CPR-curve description such as
`.2 ramp 6 for 30, 6`.

This project models the core of that computation over the reals:

- `PrepaymentCalcs` covers CPR and SMM and the PSA benchmark. It also covers
  the curve mini-language of `cpr_curve_creator`: comma-separated segments,
  each `<start> [ramp <end>] [for <n>]`, laid out one `numpy.linspace` after
  another from period 1.
- `NumpyLinspace` is `numpy.linspace` with its default `endpoint=True`.
- `PyStr` covers `str.strip()` and `str.split(sep)`.
- `PyFloat` is `float()` on the finite decimal literals it accepts. Around a
  literal it strips the whitespace `str.isspace()` accepts, except the
  information separators U+001C..U+001F, which it keeps and so rejects.
- `ScheduledBalances` is `scheduled_balance_percent_for_period` and the
  `bal_percent` / balance columns of `scheduled_balances`.
- `CollateralWaterfall` is `create_waterfall`:
  - the SMM series read off the curve at index `period + age - 1`, with
    `age = 360 - wam` and Python's negative indexing;
  - `np.pmt` as the level annuity payment;
  - the month-by-month recurrence of beginning balance, payment, net
    interest, scheduled principal, prepayment, total principal and cash
    flow.
- `RealPow` holds integer powers of reals and the facts about them the proofs
  use.
- `CurveExamples` works the description language through on concrete
  descriptions: `'6'` and the default `'.2 ramp 6 for 30, 6'`.
- `Wrappers` holds `Option` and `Result`. A Python exception becomes a
  `Failure` that carries its cause.

The twelfth root inside `SMM` is not expressible over the reals without a
root function. So `CreateWaterfall` takes the conversion as a parameter,
`smmOf`. `IsSmmOf` characterises it: the `s <= 1` with `CPR(s) == c`. The
lemmas that need a property of it say which property.

The main results:

- **The table is the loop's recurrence.** `WaterfallTable`, `IsWaterfall` and
  `WaterfallUnique` say so: one row per month, month `j + 1` starting with
  what month `j` left. Each row pays the annuity that retires its own
  beginning balance over the remaining term. That is the only table that
  satisfies the recurrence.
- **Every table of at least one month pays the original balance down in full
  and ends at zero,** whatever the SMMs (`WaterfallPaysOff`).
- **With SMMs in `[0, 1]` and a non-negative coupon, balances stay between
  zero and the original balance** (`WaterfallBalancesFall`).
- **At zero PSA speed the table follows the level-payment schedule.** Nothing
  is prepaid, whatever the WAC (`WaterfallNoPrepayment`). At a non-zero WAC,
  every month also pays the first month's payment, and each beginning balance
  is the one `scheduled_balances` lists for that period
  (`WaterfallWithoutPrepayment`, `LevelBalanceOnSchedule`). At a WAC of 0,
  `scheduled_balance_percent_for_period` divides by zero, so there is no
  schedule to compare with.
- **When the table exists.** It exists exactly when the WAM is not negative,
  the curve covers every index read and every remaining term has a finite
  annuity payment (`WaterfallOnDefined`).
- **A single open segment gives one value too few.** A description whose
  last segment has no `for` yields `358 + n` values for `n` segments
  (`CurveLengthOpenEnd`). So a single open segment such as `'6'` gives 359
  values of 6% (`SixCurve`). With it, every pool with a WAM from 1 to 360
  fails on curve index 359, before any payment is computed
  (`SingleOpenSegmentFails`). A single segment with a `for`, such as
  `'6 for 360'`, is not affected.
- **The default description is the PSA benchmark.** `'.2 ramp 6 for 30, 6'`
  gives the 360 values the table reads: 0.2% more each month up to 6% at
  month 30, then 6% (`DefaultCurve`).
- **When a description yields a curve.** It does exactly when every segment
  parses and has a whole, non-negative length where it starts
  (`CurveDefined`). A segment parses exactly when `float()` reads its first
  word and the word after every `ramp` and `for` (`ParseSegmentDefined`).

## Model

| member | source | states |
|---|---|---|
| PrepaymentCalcs.Cpr | prepayment_calcs.py:19-20 | `CPR(SMM) = 1 - (1 - SMM)^12` maps 0 to 0, 1 to 1 and `[0, 1]` into `[0, 1]` |
| PrepaymentCalcs.CprStrictlyIncreasing | prepayment_calcs.py:19-20 | below 1, a larger monthly mortality gives a strictly larger annual rate |
| PrepaymentCalcs.SmmUnique | prepayment_calcs.py:15-20 | an annual rate has at most one monthly mortality `s <= 1`, so `SMM` is a function of the CPR |
| PrepaymentCalcs.SmmOfCpr | prepayment_calcs.py:15-20 | any conversion that returns a twelfth-root SMM inverts `CPR`: `SMM(CPR(s)) == s` for `s <= 1` |
| PrepaymentCalcs.PsaAsWrittenJumps | prepayment_calcs.py:23-24 | the benchmark as written is 0.06 at month 30 and 100 times that, above 100%, at month 31 |
| PrepaymentCalcs.PsaAsWritten | prepayment_calcs.py:23-24 | the benchmark as written agrees with the corrected one up to month 30 and is 100 times it after month 30 |
| PrepaymentCalcs.Psa | prepayment_calcs.py:23-24 | the corrected benchmark is at most 6%, not negative from month 0, and exactly 6% from month 30 on and at no earlier month |
| PrepaymentCalcs.PsaMonotone | prepayment_calcs.py:23-24 | the corrected benchmark never decreases with age |
| PrepaymentCalcs.PsaBounds | prepayment_calcs.py:23-24 | the corrected benchmark stays within 0..6% for ages from 0 |
| PrepaymentCalcs.Words | prepayment_calcs.py:60 | a segment always has at least one word after `strip().split(' ')` |
| PrepaymentCalcs.Tokens | prepayment_calcs.py:60-69 | a segment has exactly one token per word of its stripped, space-split text |
| PrepaymentCalcs.TokenAt | prepayment_calcs.py:60-69 | token `j` is word `j` paired with `float(word j)`, or with the failure to read it |
| PrepaymentCalcs.ReadSegment | prepayment_calcs.py:62-65 | a segment parses only if word 0 is a number, and then starts at word 0 read as a percentage; a non-numeric word 0 fails with that word; every failure is a non-numeric word or a missing operand |
| PrepaymentCalcs.Scan | prepayment_calcs.py:62-69 | reading the words after word 0 never changes the starting CPR, and fails only on a non-numeric operand or a keyword with no operand |
| PrepaymentCalcs.ParseSegment | prepayment_calcs.py:60-69 | a segment fails to parse only on a word that is not a number or on a `ramp` or `for` with no operand after it |
| PrepaymentCalcs.ScanDefined | prepayment_calcs.py:62-69 | the words from a position on read exactly when every `ramp` and `for` among them is followed by a word that is a number |
| PrepaymentCalcs.ScanFailsAt | prepayment_calcs.py:62-69 | the first `ramp` or `for` not followed by a number is the error: a missing operand when it is the last word, otherwise the word after it that is not a number |
| PrepaymentCalcs.ReadSegmentDefined | prepayment_calcs.py:62-69 | a segment reads exactly when word 0 is a number and every `ramp` and `for` is followed by a number |
| PrepaymentCalcs.ReadSegmentFailsAt | prepayment_calcs.py:62-69 | after a numeric word 0, a segment fails on its first `ramp` or `for` without a numeric operand, with that operand or as a missing operand |
| PrepaymentCalcs.ParseSegmentDefined | prepayment_calcs.py:60-69 | a segment's text parses exactly when `float()` reads its first word and the word after every `ramp` and `for` |
| PrepaymentCalcs.ParseSegmentStart | prepayment_calcs.py:60-65 | a segment whose first word is not a number fails with that word; a parsed segment starts at its first word read as a percentage |
| PrepaymentCalcs.SegmentEnds | prepayment_calcs.py:66-69 | a segment of two or more words that parses does not end in `ramp` or `for` |
| PrepaymentCalcs.StartNotNumeric | prepayment_calcs.py:63-64 | a segment whose word 0 has no digit, such as `ramp 6`, fails with that word |
| PrepaymentCalcs.FlatSegment | prepayment_calcs.py:63-67 | a segment without `ramp` is flat at word 0 read as a percentage |
| PrepaymentCalcs.RampSegment | prepayment_calcs.py:66-67 | the last `ramp` decides the ending CPR: its operand read as a percentage |
| PrepaymentCalcs.ScanLastRamp | prepayment_calcs.py:62-67 | from any position, the last `ramp` decides the shape and its operand exists and is numeric |
| PrepaymentCalcs.ScanNoRamp | prepayment_calcs.py:62-67 | without a `ramp` the shape is left as it is |
| PrepaymentCalcs.OpenSegment | prepayment_calcs.py:59-69 | a segment without `for` leaves its length to the layout |
| PrepaymentCalcs.ForSegment | prepayment_calcs.py:68-69 | the last `for` decides the length: its operand read with `float()` |
| PrepaymentCalcs.ScanLastFor | prepayment_calcs.py:62-69 | from any position, the last `for` decides the length |
| PrepaymentCalcs.ScanNoFor | prepayment_calcs.py:62-69 | without a `for` the length is left as it is |
| PrepaymentCalcs.DanglingKeyword | prepayment_calcs.py:66-69 | a segment that ends in `ramp` or `for` fails, since the operand is read past the last word |
| PrepaymentCalcs.ScanDangling | prepayment_calcs.py:66-69 | from any position, a trailing `ramp` or `for` makes the scan fail |
| PrepaymentCalcs.SegmentIgnores | prepayment_calcs.py:62-69 | words other than word 0, the keywords and their operands do not affect the parse |
| PrepaymentCalcs.ScanIgnores | prepayment_calcs.py:62-69 | two word lists that agree on word 0, the keywords and the operands scan alike |
| PrepaymentCalcs.Count | prepayment_calcs.py:59-71 | with a `for x`, the segment produces values exactly when `x` is a whole number that is not negative, and then `x` of them; a fractional `x` fails as fractional and a negative whole `x` as negative. Without `for`, it produces values exactly when `current_period` is at most 360, and then `360 - current_period` of them; after 360 it fails as negative |
| PrepaymentCalcs.Place | prepayment_calcs.py:71-74 | placing a segment succeeds exactly when its length can be counted; it extends the curve by `n` values, from the segment's start CPR to its end CPR, and advances `current_period` by `n - 1` |
| PrepaymentCalcs.Layout | prepayment_calcs.py:49-74 | a successful layout parsed every segment; a failed one fails with a segment's parse error or a length error |
| PrepaymentCalcs.LayoutDefined | prepayment_calcs.py:49-74 | a layout succeeds exactly when every segment, placed after those before it, parses and has a whole non-negative length |
| PrepaymentCalcs.Segments | prepayment_calcs.py:41 | a description has one segment more than it has commas |
| PrepaymentCalcs.ParseAll | prepayment_calcs.py:49-69 | every segment is parsed, one result per segment |
| PrepaymentCalcs.CprCurve | prepayment_calcs.py:27-76 | a curve comes only from descriptions whose every segment parses; a failure is a segment's parse error or a length error |
| PrepaymentCalcs.CurveDefined | prepayment_calcs.py:41-76 | a description yields a curve exactly when each segment, in order, parses and has a whole non-negative length at the period it starts on |
| PrepaymentCalcs.CurveSegmentsParse | prepayment_calcs.py:41-69 | every segment of a description that yields a curve parses |
| PrepaymentCalcs.LayoutPrefix | prepayment_calcs.py:49-74 | laying out the segments is laying out a prefix of them and then the rest from where the prefix ended |
| PrepaymentCalcs.LayoutAppend | prepayment_calcs.py:49-74 | one more segment is placed after all the others, and only if they all succeed |
| PrepaymentCalcs.LayoutShift | prepayment_calcs.py:71-74 | each segment of `n` values advances `current_period` by `n - 1` and keeps what was laid out before as a prefix |
| PrepaymentCalcs.PrefixStep | prepayment_calcs.py:71-74 | laying out `k + 1` segments places segment `k` on the layout of the first `k` |
| PrepaymentCalcs.StartIndex | prepayment_calcs.py:71-74 | segment `k` starts at curve index `current_period + k - 1` |
| PrepaymentCalcs.KeepsPrefix | prepayment_calcs.py:73 | a later layout keeps every earlier one as a prefix of the curve |
| PrepaymentCalcs.PlacementOf | prepayment_calcs.py:47-74 | segment `k` appears in the curve as the linspace from its start to its end CPR, at the index its starting period gives, and the next segment starts on the period this one ends on |
| PrepaymentCalcs.OpenEndPeriod | prepayment_calcs.py:59-74 | a layout whose last segment has no `for` ends with `current_period` 359 |
| PrepaymentCalcs.CurveLengthOpenEnd | prepayment_calcs.py:41-76 | a description whose last segment has no `for` gives a curve of `358 + n` values for `n` segments |
| CurveExamples.OneWordSegment | prepayment_calcs.py:60-65 | a segment of one number `x` is flat at `x` percent with no length of its own |
| CurveExamples.RampForSegment | prepayment_calcs.py:60-69 | `a ramp b for c` ramps from `a` to `b` percent over `c` periods |
| CurveExamples.OneSegmentCurve | prepayment_calcs.py:41-76 | a one-segment description is that segment's linspace |
| CurveExamples.TwoSegmentCurve | prepayment_calcs.py:41-76 | a two-segment description is the first linspace followed by the second, which starts on the period the first ends on |
| CurveExamples.OpenFlatCurve | prepayment_calcs.py:59-76 | a single open flat segment gives 359 values, all at its level |
| CurveExamples.SixParses | prepayment_calcs.py:60-65 | `6`, with or without a leading space, is a flat open segment of 6% |
| CurveExamples.SixCurve | prepayment_calcs.py:33-34 | the description `'6'` gives 359 values of 6%, one short of the 360 periods the docstring promises |
| CurveExamples.SeparatorWord | prepayment_calcs.py:64 | `float('6\x1c')` fails: `float()` does not strip U+001C |
| CurveExamples.SeparatorSegmentFails | prepayment_calcs.py:60-64 | in `'6\x1c 7'` the separator stays in the first word after `strip()` and `split(' ')`, and the segment fails on that word |
| CurveExamples.RampParses | prepayment_calcs.py:60-69 | `.2 ramp 6 for 30` ramps from 0.2% to 6% over 30 periods |
| CurveExamples.RampThenFlatIsPsa | prepayment_calcs.py:23-24 | 30 values ramping from 0.2% to 6% followed by 330 values of 6% are the corrected benchmark for months 1 to 360 |
| CurveExamples.RampThenOpenFlat | prepayment_calcs.py:41-76 | a 30-period ramp from 0.2% to 6% followed by an open 6% gives 360 values, the benchmark month by month |
| CurveExamples.DefaultCurve | prepayment_calcs.py:27-36 | the default description `'.2 ramp 6 for 30, 6'` gives 360 values, and value `i` is the benchmark of month `i + 1` |
| NumpyLinspace.Linspace | prepayment_calcs.py:71 | `num` points that start at `start` and, from two points on, end exactly at `stop` |
| NumpyLinspace.LinspacePoint | prepayment_calcs.py:71 | point `i` is `start + i * (stop - start) / (num - 1)` |
| NumpyLinspace.LinspaceSpacing | prepayment_calcs.py:71 | consecutive points are one step apart |
| NumpyLinspace.LinspaceFlat | prepayment_calcs.py:71 | a linspace from `a` to `a` is constant, as for a segment without `ramp` |
| NumpyLinspace.LinspaceRising | prepayment_calcs.py:71 | from a lower to a higher CPR the points never decrease and stay between the two |
| NumpyLinspace.LinspaceFalling | prepayment_calcs.py:71 | from a higher to a lower CPR the points never increase and stay between the two |
| NumpyLinspace.StepSign | prepayment_calcs.py:71 | the step has the sign of `stop - start` |
| PyStr.Strip | prepayment_calcs.py:60 | `strip()` leaves `s` framed by whitespace, with no whitespace at either end of the result |
| PyStr.StripLeft | prepayment_calcs.py:60 | `lstrip()` drops exactly the leading whitespace |
| PyStr.StripRight | prepayment_calcs.py:60 | `rstrip()` drops exactly the trailing whitespace |
| PyStr.Split | prepayment_calcs.py:41 | `split(sep)` gives one more piece than there are separators, none containing the separator, and the pieces joined by `sep` are `s` |
| PyStr.SplitJoin | prepayment_calcs.py:41 | splitting undoes joining pieces that do not contain the separator |
| PyStr.SplitFree | prepayment_calcs.py:41 | a string without the separator splits into itself alone |
| PyFloat.ParseFloat | prepayment_calcs.py:64-69 | `float()` of a word with no decimal digit, such as `ramp`, fails; a word it reads holds only literal characters and the whitespace `float()` strips, so never U+001C..U+001F |
| PyFloat.ParseShowNat | prepayment_calcs.py:64 | `float(str(n)) == n` for every natural number |
| PyFloat.ShowNatValue | prepayment_calcs.py:64 | the decimal digits of `n` denote `n` |
| PyFloat.ParseFloatDecimal | prepayment_calcs.py:64 | a literal of digits, a point and digits, such as `.2`, denotes its whole part plus its fraction |
| PyFloat.ParseFloatDigits | prepayment_calcs.py:64 | a word of digits denotes its decimal value |
| PyFloat.DigitRun | prepayment_calcs.py:64 | the leading digits of a word: all digits, and followed by a non-digit or the end |
| ScheduledBalances.BalancePercent | collateral_waterfall.py:139-141 | the scheduled share is 1 at age 0 and 0 at age `nper` |
| ScheduledBalances.BalancePercentDefined | collateral_waterfall.py:139-141 | above a rate of -100%, the share is defined exactly when the rate is non-zero and there is at least one period |
| ScheduledBalances.BalancePercentFalls | collateral_waterfall.py:139-141 | at a positive rate the scheduled share strictly falls as the loan ages |
| ScheduledBalances.Schedule | collateral_waterfall.py:123-136 | periods `0..nper`, each with the scheduled share for that age and that share of `pv`, starting at `pv` and ending at 0; it exists exactly when the share does |
| RealPow.Bernoulli | collateral_waterfall.py:46-50 | `(1 + x)^n >= 1 + n x` for `x >= 0`, which bounds the annuity's growth factor |
| RealPow.PowEqualsOne | collateral_waterfall.py:46-50 | for a base above 0, `x^n == 1` with `n >= 1` only when `x == 1`, so `np.pmt` is finite above a rate of -100% |
| RealPow.PowStrictlyIncreasing | collateral_waterfall.py:139-141 | raising to a power `n >= 1` is strictly increasing on non-negative bases |
| CollateralWaterfall.Payment | collateral_waterfall.py:46-50 | `-np.pmt(rate, nper, pv)` with `when='end'` retires `pv` over `nper` periods |
| CollateralWaterfall.PaymentUnique | collateral_waterfall.py:46-50 | a payment satisfies the annuity equation exactly when it is `np.pmt`'s |
| CollateralWaterfall.AnnuityPaymentSame | collateral_waterfall.py:46-50 | two payments that retire the same annuity are equal |
| CollateralWaterfall.AnnuityDefinedAboveMinusOne | collateral_waterfall.py:46-50 | above a rate of -100% every annuity payment is finite |
| CollateralWaterfall.PaymentOnePeriod | collateral_waterfall.py:46-50 | with one period left the payment is the balance plus one period's interest |
| CollateralWaterfall.LevelPayment | collateral_waterfall.py:46-50 | after one level payment, the same payment retires what is left over one period fewer |
| CollateralWaterfall.LevelPaymentKept | collateral_waterfall.py:46-50 | the payment that retires what one level payment leaves is that same payment |
| CollateralWaterfall.PyAt | collateral_waterfall.py:23 | `cpr_curve[k]` exists exactly for `-len <= k < len`, and is then a value of the curve |
| CollateralWaterfall.PeriodSmm | collateral_waterfall.py:23 | the SMM of a period exists exactly when its curve index `period + age - 1` is in range |
| CollateralWaterfall.Smms | collateral_waterfall.py:23 | one SMM per period `p..wam`; a failure names an out-of-range curve index among those read |
| CollateralWaterfall.SmmsDefined | collateral_waterfall.py:23 | the SMM series exists exactly when the first and the last index read are both in range |
| CollateralWaterfall.SmmsHead | collateral_waterfall.py:23 | a series starts with its first period's SMM, followed by the series from the next period |
| CollateralWaterfall.SmmsAt | collateral_waterfall.py:23 | entry `period - p` of the series is the SMM of period `period` |
| CollateralWaterfall.SmmsPastEnd | collateral_waterfall.py:23 | indices that start inside the curve and run past its end fail on the first index past the end |
| CollateralWaterfall.TwelfthRootKeepsUnit | prepayment_calcs.py:15-20 | a conversion that returns the twelfth-root SMM maps `[0, 1]` into `[0, 1]` |
| CollateralWaterfall.PeriodSmmBounded | collateral_waterfall.py:23 | an SMM read from speed-scaled rates in `[0, 1]` through a conversion that keeps `[0, 1]` is in `[0, 1]` |
| CollateralWaterfall.Rows | collateral_waterfall.py:39-61 | the loop produces one row per SMM |
| CollateralWaterfall.RowsAt | collateral_waterfall.py:39-61 | row `j` is the row of month `month + j` with `|smms| - j` payments left, on the balance the row before it left |
| CollateralWaterfall.MakeRow | collateral_waterfall.py:46-61 | one loop iteration satisfies the row identities: annuity payment, net interest at the pass-through coupon, scheduled principal, prepayment, total principal and cash flow |
| CollateralWaterfall.RowsIsWaterfall | collateral_waterfall.py:39-61 | the loop computes a table that satisfies the recurrence |
| CollateralWaterfall.SameRow | collateral_waterfall.py:46-61 | a row is fixed by its month, SMM, beginning balance and payments left |
| CollateralWaterfall.SameRowsUpTo | collateral_waterfall.py:39-61 | two tables that satisfy the recurrence agree row by row |
| CollateralWaterfall.WaterfallUnique | collateral_waterfall.py:39-61 | the recurrence has exactly one solution for given SMMs and balance |
| CollateralWaterfall.CreateWaterfall | collateral_waterfall.py:9-63 | a table, when there is one, has one row per month of the WAM |
| CollateralWaterfall.WaterfallOn | collateral_waterfall.py:17-61 | a table has `wam` rows; an index failure names an out-of-range curve index; a non-finite-payment failure names a remaining term whose payment is infinite |
| CollateralWaterfall.FirstUndefined | collateral_waterfall.py:46-50 | the longest remaining term whose payment is infinite; every longer term is finite |
| CollateralWaterfall.WaterfallOnDefined | collateral_waterfall.py:17-50 | the table exists exactly when the WAM is not negative, the curve covers indices `360 - wam` through 359 and every remaining term has a finite payment; a negative WAM fails at `np.zeros` |
| CollateralWaterfall.WaterfallOnShortCurve | collateral_waterfall.py:18-23 | for a WAM between 1 and 360, a curve shorter than 360 values fails on the first index read that lies past its end |
| CollateralWaterfall.WaterfallTable | collateral_waterfall.py:39-61 | the table of a pool is the waterfall of its original balance under its own SMM column, months numbered from 1 |
| CollateralWaterfall.WaterfallSmm | collateral_waterfall.py:23 | the SMM of month `j + 1` is `SMM(cpr_curve[j + 360 - wam] * psa_speed)` |
| CollateralWaterfall.SingleOpenSegmentFails | collateral_waterfall.py:17-23 | a description of one segment without `for` fails every pool with a WAM from 1 to 360 on curve index 359, whatever its payments |
| CollateralWaterfall.CreateWaterfallOpenEnd | collateral_waterfall.py:17-23 | for an open-ended description, a WAM of 0..360 and finite payments, the table exists exactly when the WAM is 0 or there are two or more segments; one segment fails on index 359 |
| CollateralWaterfall.LastRow | collateral_waterfall.py:46-61 | with one payment left the scheduled principal is the whole balance, nothing is prepaid and the row ends at zero |
| CollateralWaterfall.PaysOffFrom | collateral_waterfall.py:39-61 | from any month on, the table pays down exactly the balance that month starts with |
| CollateralWaterfall.PaysOff | collateral_waterfall.py:39-61 | the total principal of a non-empty waterfall is its starting balance, and its last row ends at zero |
| CollateralWaterfall.WaterfallPaysOff | collateral_waterfall.py:9-63 | the total principal of a pool's table is its original balance, and the last month ends at zero |
| CollateralWaterfall.AnnuityPrincipalWithin | collateral_waterfall.py:46-55 | at a non-negative rate the principal part of the annuity payment is between zero and the balance |
| CollateralWaterfall.GrowthAboveRate | collateral_waterfall.py:46-50 | compound growth over at least one period exceeds one by at least the rate |
| CollateralWaterfall.ScheduledWithinBalance | collateral_waterfall.py:46-55 | at a non-negative coupon the scheduled principal of a row is between zero and its beginning balance |
| CollateralWaterfall.RowBounds | collateral_waterfall.py:46-59 | with an SMM in `[0, 1]`, the prepayment is non-negative and the row ends between zero and its beginning balance |
| CollateralWaterfall.BalancesFall | collateral_waterfall.py:39-61 | with SMMs in `[0, 1]` and a non-negative coupon, every beginning balance is between zero and the starting balance and no row grows its balance |
| CollateralWaterfall.WaterfallSmmsBounded | collateral_waterfall.py:23 | every SMM of a pool's table is in `[0, 1]` when the speed-scaled CPRs are and the conversion keeps `[0, 1]` |
| CollateralWaterfall.WaterfallBalancesFall | collateral_waterfall.py:9-63 | the same bounds for a pool's table, from bounds on its curve and on the SMM conversion |
| CollateralWaterfall.ZeroSmmPair | collateral_waterfall.py:43-57 | a month without prepayment leaves its balance plus gross-coupon interest less the payment, and the next month pays the same payment |
| CollateralWaterfall.ZeroSmmNext | collateral_waterfall.py:39-61 | the same for consecutive rows of a waterfall |
| CollateralWaterfall.LevelBalanceClosed | collateral_waterfall.py:131-132 | the balance after `j` level payments has the closed form `b_j r = p (1+r)^j r - pay ((1+r)^j - 1)` |
| CollateralWaterfall.ZeroSmmLevel | collateral_waterfall.py:39-61 | without prepayment every month pays the first month's payment and starts with the level-payment balance |
| CollateralWaterfall.ClosedShare | collateral_waterfall.py:131-132 | the closed form, with the payment that retires the whole term, is the scheduled share `(n - a) / (n - 1)` |
| CollateralWaterfall.PercentOfShare | collateral_waterfall.py:139-141 | that share is `scheduled_balance_percent_for_period` |
| CollateralWaterfall.ShareFromClosed | collateral_waterfall.py:139-141 | the closed form and the annuity payment give the scheduled share of the balance |
| CollateralWaterfall.LevelBalanceShare | collateral_waterfall.py:139-141 | after `j` annuity payments the balance is `scheduled_balance_percent_for_period(rate, nper, j)` times the original |
| CollateralWaterfall.LevelBalanceOnSchedule | collateral_waterfall.py:123-136 | after `j` annuity payments the balance is the one `scheduled_balances` lists for period `j` |
| CollateralWaterfall.ZeroSmmNoPrepayment | collateral_waterfall.py:55-59 | with every SMM zero, whatever the coupon, no row prepays and each row's total principal is its scheduled principal |
| CollateralWaterfall.ZeroSmmFollowsSchedule | collateral_waterfall.py:39-61 | with every SMM zero and a non-zero coupon, nothing is prepaid and every row starts on the scheduled balance of its period |
| CollateralWaterfall.WaterfallNoPrepayment | collateral_waterfall.py:9-63 | at zero PSA speed, with a conversion that returns the twelfth-root SMM of a zero CPR, and whatever the WAC, no month of a pool's table prepays |
| CollateralWaterfall.WaterfallWithoutPrepayment | collateral_waterfall.py:9-63 | at zero PSA speed, with a conversion that returns the twelfth-root SMM of a zero CPR, and a non-zero WAC, a pool's table prepays nothing and follows `scheduled_balances` |

## Left out

- `create_waterfall_enhanced` is not modelled. It reads the undefined name `original_balance`, so every call raises `NameError`.
- `actual_balances` is not modelled, because its body is empty.
- pandas table mechanics are not modelled: `DataFrame`, `join`, `iterrows` and `.ix`. The table is a sequence of rows. The model assumes, as the loop evidently does, that assigning to `row` writes through to the table that the next iteration reads.
- The pandas index of `scheduled_balances` is read as the periods `0 .. nper`.
- Bokeh output and the `__main__` blocks are left out: they are I/O.
- `PrepaymentCalcs.IsSmmOf`: the twelfth root in `SMM` is a parameter `smmOf` characterised by `CPR(SMM(c)) == c`, not computed. The reals have no root function.
- Floating-point rounding is not modelled; all arithmetic is exact real arithmetic.
- The `end_period` flag of `cpr_curve_creator` is left out: it is set but never read.
- `PrepaymentCalcs.Count`: the model assumes numpy before 1.18. `for` operands are floats, so `np.linspace` receives a float `num` for them, and for every segment after one of them. numpy before 1.18 accepts a float `num` with a `DeprecationWarning` and truncates it; numpy 1.18 and later raise `TypeError` for any float `num`, even a whole one such as the default's `30.0`. The model accepts a whole-valued length and, where old numpy would silently truncate a fractional one, returns a `FractionalLength` failure instead.
- `PyFloat.ParseFloat` does not read `inf`, `nan`, underscores in digits or non-ASCII digits. Every curve those words would produce is left out.
- `CollateralWaterfall.WaterfallOn`: where `np.pmt` would divide by zero, the model returns a `NonFinitePayment` failure. numpy would instead return `inf` or `nan` and carry it through the table. This happens at a rate of -100% or below, with `(1 + rate)^n == 1`.
- `ScheduledBalances.BalancePercent`: the number of periods and the age are whole numbers no less than zero, because `Pow` is an integer power. `scheduled_balance_percent_for_period` has no caller in the source and accepts any number; a fractional or negative age, or a negative `nper`, gives it a value that the model does not cover.
- `ScheduledBalances.BalancePercent`: a zero denominator is a `ZeroDivision` failure, as in `scheduled_balance_percent_for_period`. `scheduled_balances` would instead produce numpy `inf` or `nan` columns; `Schedule` fails there too.
- The docstring of `cpr_curve_creator` promises a curve that carries to period 360. The code carries its last open segment to `current_period` 359, and the model follows the code: `CurveLengthOpenEnd`.

## Findings

| source | as written | input that shows it | evidently intended | confidence | as-written member | corrected member |
|---|---|---|---|---|---|---|
| prepayment_calcs.py:23-24 | `PSA(month)` returns `month * 0.002`, a fraction, up to month 30, and `6`, a percentage, after it | `month = 31`: `PSA(31) == 6`, 100 times `PSA(30) == 0.06` and above 100% | `0.06` from month 30 on, in the ramp's units | high (not executed) | PrepaymentCalcs.PsaAsWrittenJumps | PrepaymentCalcs.PsaBounds |

=== FILE: collateral_waterfall.dfy ===
/** The collateral waterfall (amortization table) of a mortgage pool: one
    row per remaining month, each paying the level annuity on the balance
    left, plus the prepayments the month's SMM calls for. */
module CollateralWaterfall {
  import opened Wrappers
  import opened RealPow
  import opened PrepaymentCalcs
  import opened ScheduledBalances

  /** The pool summary the table is computed from. */
  datatype Pool = Pool(
    originalBalance: real,
    passThruCpn: real,
    wac: real,
    wam: int,
    psaSpeed: real,
    cprDescription: string)

  /** One month of the table. */
  datatype Row = Row(
    month: nat,
    beginningBalance: real,
    smm: real,
    mortgagePayment: real,
    netInterest: real,
    scheduledPrincipal: real,
    prepayment: real,
    totalPrincipal: real,
    cashFlow: real)

  datatype WaterfallError =
    | CurveFailed(cause: CurveError)  // the CPR description does not parse or lay out
    | NegativeDimensions(size: int)   // `np.zeros(wam)` with `wam < 0`
    | IndexOutOfRange(index: int)     // the curve has no value at this index
    | NonFinitePayment(nper: nat)     // `np.pmt` divides by zero: `(1 + rate) ** nper == 1`, `rate != 0`

  // ---------------------------------------------------------------------
  // The annuity payment behind `np.pmt`

  /** `(1 + rate) ** n`: what one unit grows to over `n` periods. */
  function Growth(rate: real, n: nat): real {
    Pow(1.0 + rate, n)
  }

  lemma GrowthSucc(rate: real, n: nat)
    ensures Growth(rate, n + 1) == Growth(rate, n) * (1.0 + rate)
  {
    PowSucc(1.0 + rate, n);
  }

  /** `np.pmt(rate, nper, pv)` is finite: its denominator
      `((1 + rate) ** nper - 1) / rate` is not zero. */
  predicate AnnuityDefined(rate: real, nper: nat) {
    rate == 0.0 || Growth(rate, nper) != 1.0
  }

  /** `pay` is the level end-of-period payment that pays off `pv` over
      `nper` periods: at a non-zero rate the loan and the payments have the
      same future value, at rate 0 the payments add up to the loan. */
  predicate IsAnnuityPayment(rate: real, nper: nat, pv: real, pay: real) {
    if rate == 0.0 then pay * (nper as real) == pv
    else pv * Growth(rate, nper) == pay * ((Growth(rate, nper) - 1.0) / rate)
  }

  /** `-np.pmt(rate, nper, pv, fv=0, when='end')`. */
  function Payment(rate: real, nper: nat, pv: real): (pay: real)
    requires nper >= 1 && AnnuityDefined(rate, nper)
    ensures IsAnnuityPayment(rate, nper, pv, pay)
  {
    if rate == 0.0 then pv / (nper as real)
    else
      var t := Growth(rate, nper);
      var fact := (t - 1.0) / rate;
      pv * t / fact
  }

  /** The annuity equation has no other solution: a payment satisfies it
      exactly when it is `Payment`. */
  lemma PaymentUnique(rate: real, nper: nat, pv: real, pay: real)
    requires nper >= 1 && AnnuityDefined(rate, nper)
    ensures IsAnnuityPayment(rate, nper, pv, pay) <==> pay == Payment(rate, nper, pv)
  {
    var p := Payment(rate, nper, pv);
    if IsAnnuityPayment(rate, nper, pv, pay) {
      if rate == 0.0 {
        CancelFactor(pay, p, nper as real);
      } else {
        var t := Growth(rate, nper);
        assert (t - 1.0) / rate != 0.0;
        CancelFactor(pay, p, (t - 1.0) / rate);
      }
    }
  }

  lemma CancelFactor(u: real, v: real, d: real)
    requires d != 0.0 && u * d == v * d
    ensures u == v
  {
    assert (u - v) * d == 0.0;
  }

  /** Above a rate of -100% every annuity is finite. */
  lemma AnnuityDefinedAboveMinusOne(rate: real, nper: nat)
    requires rate > -1.0 && nper >= 1
    ensures AnnuityDefined(rate, nper)
  {
    if rate != 0.0 && Growth(rate, nper) == 1.0 {
      PowEqualsOne(1.0 + rate, nper);
    }
  }

  /** A single remaining period pays the balance with one period's interest. */
  lemma PaymentOnePeriod(rate: real, pv: real)
    requires AnnuityDefined(rate, 1)
    ensures Payment(rate, 1, pv) == pv * (1.0 + rate)
  {
    GrowthSucc(rate, 0);
  }

  // ---------------------------------------------------------------------
  // The SMM series

  /** `seq[k]` with Python's reading of a negative index. */
  function PyAt(s: seq<real>, k: int): (r: Option<real>)
    ensures r.Some? <==> -|s| <= k < |s|
    ensures r.Some? ==> r.value in s
  {
    if 0 <= k < |s| then Some(s[k])
    else if -|s| <= k < 0 then Some(s[|s| + k])
    else None
  }

  /** `SMM(cpr_curve[period + age - 1] * psa_speed)`, or `None` where the
      index is out of range. */
  function PeriodSmm(curve: seq<real>, age: int, speed: real, smmOf: real -> real, period: int): (r: Option<real>)
    ensures r.Some? <==> PyAt(curve, period + age - 1).Some?
  {
    match PyAt(curve, period + age - 1)
    case None => None
    case Some(c) => Some(smmOf(c * speed))
  }

  /** Every rate of the curve, scaled by the PSA speed, is in `[0, 1]`. */
  predicate ScaledWithinUnit(curve: seq<real>, speed: real) {
    forall c :: c in curve ==> 0.0 <= c * speed <= 1.0
  }

  /** The SMM conversion maps rates in `[0, 1]` into `[0, 1]`. */
  ghost predicate KeepsUnit(smmOf: real -> real) {
    forall x :: 0.0 <= x <= 1.0 ==> 0.0 <= smmOf(x) <= 1.0
  }

  /** A conversion that is the twelfth root on every rate in `[0, 1]`
      keeps `[0, 1]`: a negative monthly mortality would have a negative
      annual rate. */
  lemma TwelfthRootKeepsUnit(smmOf: real -> real)
    requires forall x :: 0.0 <= x <= 1.0 ==> IsSmmOf(smmOf(x), x)
    ensures KeepsUnit(smmOf)
  {
    forall x | 0.0 <= x <= 1.0
      ensures 0.0 <= smmOf(x) <= 1.0
    {
      var s := smmOf(x);
      assert IsSmmOf(s, x);
      if s < 0.0 {
        CprStrictlyIncreasing(s, 0.0);
        assert false;
      }
    }
  }

  /** An SMM read from a curve of speed-scaled rates in `[0, 1]` through a
      conversion that keeps `[0, 1]` is in `[0, 1]`. */
  lemma PeriodSmmBounded(curve: seq<real>, age: int, speed: real, smmOf: real -> real, period: int)
    requires ScaledWithinUnit(curve, speed)
    requires KeepsUnit(smmOf)
    requires PeriodSmm(curve, age, speed, smmOf, period).Some?
    ensures 0.0 <= PeriodSmm(curve, age, speed, smmOf, period).value <= 1.0
  {
    var c := PyAt(curve, period + age - 1).value;
    assert c in curve;
  }

  /** The SMMs of periods `p .. wam`.  The first period whose curve index
      is out of range fails. */
  function Smms(curve: seq<real>, age: int, speed: real, smmOf: real -> real, p: nat, wam: nat)
    : (r: Result<seq<real>, WaterfallError>)
    requires p >= 1
    ensures r.Success? ==> |r.value| == wam + 1 - p || (p > wam && r.value == [])
    ensures r.Failure? ==>
      r.error.IndexOutOfRange? && p + age - 1 <= r.error.index <= wam + age - 1 && PyAt(curve, r.error.index).None?
    decreases wam + 1 - p
  {
    if p > wam then Success([])
    else match PeriodSmm(curve, age, speed, smmOf, p)
      case None => Failure(IndexOutOfRange(p + age - 1))
      case Some(smm) =>
        var rest :- Smms(curve, age, speed, smmOf, p + 1, wam);
        Success([smm] + rest)
  }

  /** The series exists exactly when the curve reaches both the first and
      the last index read: the indices in between are then in range too. */
  lemma {:induction false} SmmsDefined(curve: seq<real>, age: int, speed: real, smmOf: real -> real, p: nat, wam: nat)
    requires p >= 1
    ensures Smms(curve, age, speed, smmOf, p, wam).Success?
      <==> p > wam || (-|curve| <= p + age - 1 && wam + age - 1 < |curve|)
    decreases wam + 1 - p
  {
    if p <= wam && PyAt(curve, p + age - 1).Some? {
      SmmsDefined(curve, age, speed, smmOf, p + 1, wam);
    }
  }

  /** A series that exists starts with its first SMM, followed by the series from the next period. */
  lemma SmmsHead(curve: seq<real>, age: int, speed: real, smmOf: real -> real, p: nat, wam: nat)
    requires p >= 1 && p <= wam && Smms(curve, age, speed, smmOf, p, wam).Success?
    ensures Smms(curve, age, speed, smmOf, p + 1, wam).Success?
    ensures PeriodSmm(curve, age, speed, smmOf, p).Some?
    ensures Smms(curve, age, speed, smmOf, p, wam).value
      == [PeriodSmm(curve, age, speed, smmOf, p).value] + Smms(curve, age, speed, smmOf, p + 1, wam).value
  {
  }

  /** Entry `period - p` of the series is the SMM of period `period`. */
  lemma {:induction false} SmmsAt(curve: seq<real>, age: int, speed: real, smmOf: real -> real, p: nat, wam: nat, period: nat)
    requires p >= 1 && Smms(curve, age, speed, smmOf, p, wam).Success?
    requires p <= period <= wam
    ensures PeriodSmm(curve, age, speed, smmOf, period).Some?
    ensures Smms(curve, age, speed, smmOf, p, wam).value[period - p] == PeriodSmm(curve, age, speed, smmOf, period).value
    decreases period - p
  {
    SmmsHead(curve, age, speed, smmOf, p, wam);
    if period > p {
      SmmsAt(curve, age, speed, smmOf, p + 1, wam, period);
    }
  }

  /** When the indices read start inside the curve and run past its end,
      the series fails on the first index past the end. */
  lemma {:induction false} SmmsPastEnd(curve: seq<real>, age: int, speed: real, smmOf: real -> real, p: nat, wam: nat)
    requires 1 <= p <= wam
    requires 0 <= p + age - 1 && |curve| <= wam + age - 1
    ensures Smms(curve, age, speed, smmOf, p, wam)
      == Failure(IndexOutOfRange(if p + age - 1 < |curve| then |curve| else p + age - 1))
    decreases wam + 1 - p
  {
    if p + age - 1 < |curve| {
      SmmsPastEnd(curve, age, speed, smmOf, p + 1, wam);
    }
  }

  // ---------------------------------------------------------------------
  // The rows

  /** Every remaining term `1 .. n` has a finite annuity payment. */
  predicate AnnuitiesDefined(rate: real, n: nat) {
    forall k: nat :: 1 <= k <= n ==> AnnuityDefined(rate, k)
  }

  /** The row for `month`, with `nper` payments left on `balance`. */
  function MakeRow(ptc: real, wac: real, month: nat, nper: nat, balance: real, smm: real): (row: Row)
    requires nper >= 1 && AnnuityDefined(wac / 12.0, nper)
    ensures row.month == month && row.smm == smm && row.beginningBalance == balance
    ensures RowHolds(ptc, wac, nper, row)
  {
    var payment := Payment(wac / 12.0, nper, balance);
    var netInterest := balance * ptc / 12.0;
    var grossCoupon := balance * (wac / 12.0);
    var scheduled := payment - grossCoupon;
    var prepayment := smm * (balance - scheduled);
    var total := scheduled + prepayment;
    Row(month, balance, smm, payment, netInterest, scheduled, prepayment, total, netInterest + total)
  }

  /** What the next month starts with. */
  function EndingBalance(row: Row): real {
    row.beginningBalance - row.totalPrincipal
  }

  /** The rows from `month` on, one per SMM; the first starts with `balance`
      and the number of SMMs left is the number of payments left. */
  function Rows(ptc: real, wac: real, month: nat, balance: real, smms: seq<real>): (rows: seq<Row>)
    requires AnnuitiesDefined(wac / 12.0, |smms|)
    ensures |rows| == |smms|
    decreases |smms|
  {
    if smms == [] then []
    else
      var row := MakeRow(ptc, wac, month, |smms|, balance, smms[0]);
      [row] + Rows(ptc, wac, month + 1, EndingBalance(row), smms[1..])
  }

  /** `create_waterfall`: the table for a pool, with `smmOf` standing for
      `SMM`, the twelfth-root conversion from an annual to a monthly rate. */
  function CreateWaterfall(pool: Pool, smmOf: real -> real): (r: Result<seq<Row>, WaterfallError>)
    ensures r.Success? ==> pool.wam >= 0 && |r.value| == pool.wam
  {
    match CprCurve(pool.cprDescription)
    case Failure(e) => Failure(CurveFailed(e))
    case Success(curve) => WaterfallOn(pool, curve, smmOf)
  }

  /** The table once the CPR curve is laid out. */
  function WaterfallOn(pool: Pool, curve: seq<real>, smmOf: real -> real): (r: Result<seq<Row>, WaterfallError>)
    ensures r.Success? ==> pool.wam >= 0 && |r.value| == pool.wam
    ensures r.Failure? && r.error.IndexOutOfRange? ==> PyAt(curve, r.error.index).None?
    ensures r.Failure? && r.error.NonFinitePayment? ==>
      1 <= r.error.nper <= pool.wam && !AnnuityDefined(pool.wac / 12.0, r.error.nper)
  {
    var age := Horizon - pool.wam;
    if pool.wam < 0 then Failure(NegativeDimensions(pool.wam))
    else
      var smms :- Smms(curve, age, pool.psaSpeed, smmOf, 1, pool.wam);
      var rate := pool.wac / 12.0;
      if !AnnuitiesDefined(rate, pool.wam) then Failure(NonFinitePayment(FirstUndefined(rate, pool.wam)))
      else Success(Rows(pool.passThruCpn, pool.wac, 1, pool.originalBalance, smms))
  }

  /** The longest remaining term whose payment is not finite; the table
      would carry an infinite payment from that month on. */
  function FirstUndefined(rate: real, n: nat): (k: nat)
    requires !AnnuitiesDefined(rate, n)
    ensures 1 <= k <= n && !AnnuityDefined(rate, k)
    ensures forall j: nat :: k < j <= n ==> AnnuityDefined(rate, j)
  {
    if !AnnuityDefined(rate, n) then n
    else
      assert n >= 1 && !AnnuitiesDefined(rate, n - 1);
      FirstUndefined(rate, n - 1)
  }

  // ---------------------------------------------------------------------
  // The table as a recurrence

  /** The identities of one iteration of the loop, for a row with `nper`
      payments left: the annuity payment on the row's own beginning balance,
      interest at the pass-through and the gross coupon, prepayment of the
      SMM share of what the scheduled principal leaves. */
  predicate RowHolds(ptc: real, wac: real, nper: nat, row: Row) {
    var bal := row.beginningBalance;
    nper >= 1 && AnnuityDefined(wac / 12.0, nper) &&
    IsAnnuityPayment(wac / 12.0, nper, bal, row.mortgagePayment) &&
    row.netInterest == bal * ptc / 12.0 &&
    row.scheduledPrincipal == row.mortgagePayment - bal * (wac / 12.0) &&
    row.prepayment == row.smm * (bal - row.scheduledPrincipal) &&
    row.totalPrincipal == row.scheduledPrincipal + row.prepayment &&
    row.cashFlow == row.netInterest + row.totalPrincipal
  }

  /** `table` is the waterfall of `balance` under `smms`, its months
      numbered from `first`: row `j` has SMM `smms[j]` and
      `|smms| - j` payments left, the first row starts with `balance` and
      every later one with what the row before it left. */
  predicate IsWaterfall(ptc: real, wac: real, first: nat, balance: real, smms: seq<real>, table: seq<Row>) {
    |table| == |smms| &&
    (|table| > 0 ==> table[0].beginningBalance == balance) &&
    (forall j :: 0 <= j < |table| ==>
      table[j].month == first + j && table[j].smm == smms[j] && RowHolds(ptc, wac, |smms| - j, table[j])) &&
    (forall j :: 0 < j < |table| ==> table[j].beginningBalance == EndingBalance(table[j - 1]))
  }

  /** Row `j` of `Rows` is the row of month `month + j`, with `|smms| - j`
      payments left, on the balance the row before it left. */
  lemma {:induction false} RowsAt(ptc: real, wac: real, month: nat, balance: real, smms: seq<real>, j: nat)
    requires AnnuitiesDefined(wac / 12.0, |smms|)
    requires j < |smms|
    ensures var rows := Rows(ptc, wac, month, balance, smms);
      var bal := if j == 0 then balance else EndingBalance(rows[j - 1]);
      AnnuityDefined(wac / 12.0, |smms| - j) &&
      rows[j] == MakeRow(ptc, wac, month + j, |smms| - j, bal, smms[j])
    decreases j
  {
    var rows := Rows(ptc, wac, month, balance, smms);
    var row := MakeRow(ptc, wac, month, |smms|, balance, smms[0]);
    var rest := Rows(ptc, wac, month + 1, EndingBalance(row), smms[1..]);
    assert rows == [row] + rest;
    if j > 0 {
      assert AnnuitiesDefined(wac / 12.0, |smms[1..]|);
      RowsAt(ptc, wac, month + 1, EndingBalance(row), smms[1..], j - 1);
      assert rows[j] == rest[j - 1];
      assert rows[j - 1] == if j == 1 then row else rest[j - 2];
    }
  }

  /** `Rows` computes a waterfall. */
  lemma RowsIsWaterfall(ptc: real, wac: real, month: nat, balance: real, smms: seq<real>)
    requires AnnuitiesDefined(wac / 12.0, |smms|)
    ensures IsWaterfall(ptc, wac, month, balance, smms, Rows(ptc, wac, month, balance, smms))
  {
    var rows := Rows(ptc, wac, month, balance, smms);
    forall j | 0 <= j < |rows|
      ensures rows[j].month == month + j && rows[j].smm == smms[j] && RowHolds(ptc, wac, |smms| - j, rows[j])
      ensures j == 0 ==> rows[j].beginningBalance == balance
      ensures j > 0 ==> rows[j].beginningBalance == EndingBalance(rows[j - 1])
    {
      RowsAt(ptc, wac, month, balance, smms, j);
    }
  }

  /** A row is fixed by its month, SMM and beginning balance. */
  lemma SameRow(ptc: real, wac: real, nper: nat, a: Row, b: Row)
    requires RowHolds(ptc, wac, nper, a) && RowHolds(ptc, wac, nper, b)
    requires a.month == b.month && a.smm == b.smm && a.beginningBalance == b.beginningBalance
    ensures a == b
  {
    AnnuityPaymentSame(wac / 12.0, nper, a.beginningBalance, a.mortgagePayment, b.mortgagePayment);
  }

  lemma {:induction false} SameRowsUpTo(ptc: real, wac: real, first: nat, balance: real, smms: seq<real>, t: seq<Row>, u: seq<Row>, j: nat)
    requires IsWaterfall(ptc, wac, first, balance, smms, t) && IsWaterfall(ptc, wac, first, balance, smms, u)
    requires j < |smms|
    ensures t[j] == u[j]
  {
    if j > 0 {
      SameRowsUpTo(ptc, wac, first, balance, smms, t, u, j - 1);
    }
    SameRow(ptc, wac, |smms| - j, t[j], u[j]);
  }

  /** There is only one waterfall of a balance under given SMMs, so `Rows`
      is the waterfall. */
  lemma WaterfallUnique(ptc: real, wac: real, first: nat, balance: real, smms: seq<real>, t: seq<Row>, u: seq<Row>)
    requires IsWaterfall(ptc, wac, first, balance, smms, t) && IsWaterfall(ptc, wac, first, balance, smms, u)
    ensures t == u
  {
    forall j | 0 <= j < |t|
      ensures t[j] == u[j]
    {
      SameRowsUpTo(ptc, wac, first, balance, smms, t, u, j);
    }
  }

  // ---------------------------------------------------------------------
  // Full amortization

  /** The principal a run of rows pays down. */
  function SumPrincipal(rows: seq<Row>): real {
    if rows == [] then 0.0 else rows[0].totalPrincipal + SumPrincipal(rows[1..])
  }

  /** With one payment left the payment is the balance plus a month's
      interest, so the scheduled principal is the whole balance, nothing is
      left to prepay and the row ends at zero. */
  lemma LastRow(ptc: real, wac: real, row: Row)
    requires RowHolds(ptc, wac, 1, row)
    ensures row.mortgagePayment == row.beginningBalance * (1.0 + wac / 12.0)
    ensures row.scheduledPrincipal == row.beginningBalance
    ensures row.prepayment == 0.0 && row.totalPrincipal == row.beginningBalance
    ensures EndingBalance(row) == 0.0
  {
    var bal, r := row.beginningBalance, wac / 12.0;
    PaymentOnePeriod(r, bal);
    PaymentUnique(r, 1, bal, row.mortgagePayment);
    assert bal * (1.0 + r) - bal * r == bal;
    assert row.smm * (bal - bal) == 0.0;
  }

  /** From row `j` on the table pays down exactly the balance row `j` starts with. */
  lemma {:induction false} PaysOffFrom(ptc: real, wac: real, first: nat, balance: real, smms: seq<real>, table: seq<Row>, j: nat)
    requires IsWaterfall(ptc, wac, first, balance, smms, table)
    requires j < |table|
    ensures SumPrincipal(table[j..]) == table[j].beginningBalance
    decreases |table| - j
  {
    if j == |table| - 1 {
      assert table[j..] == [table[j]];
      LastRow(ptc, wac, table[j]);
    } else {
      PaysOffFrom(ptc, wac, first, balance, smms, table, j + 1);
      assert table[j..][1..] == table[j + 1..];
      assert table[j + 1].beginningBalance == EndingBalance(table[j]);
    }
  }

  /** The total principal of a waterfall of at least one month is the
      balance it starts with, whatever the SMMs, and its last row ends at zero. */
  lemma PaysOff(ptc: real, wac: real, first: nat, balance: real, smms: seq<real>, table: seq<Row>)
    requires IsWaterfall(ptc, wac, first, balance, smms, table)
    requires |table| >= 1
    ensures SumPrincipal(table) == balance
    ensures EndingBalance(table[|table| - 1]) == 0.0
  {
    PaysOffFrom(ptc, wac, first, balance, smms, table, 0);
    assert table[0..] == table;
    LastRow(ptc, wac, table[|table| - 1]);
  }

  // ---------------------------------------------------------------------
  // Bounds

  /** The principal part of an annuity payment at a positive rate, when the
      growth factor `t` exceeds one by at least the rate, is between zero and
      the balance. */
  lemma AnnuityPrincipalBounds(pv: real, r: real, t: real, pay: real)
    requires pv >= 0.0 && r > 0.0 && t - 1.0 >= r
    requires pv * t == pay * ((t - 1.0) / r)
    ensures 0.0 <= pay - pv * r <= pv
  {
    var q := (t - 1.0) / r;
    assert r * q == t - 1.0;
    assert q >= 1.0 by {
      if q < 1.0 {
        MulLeftStrict(r, q, 1.0);
      }
    }
    var s := pay - pv * r;
    assert s * q == pv by {
      calc {
        s * q;
        pay * q - pv * (r * q);
        pv * t - pv * (t - 1.0);
        pv;
      }
    }
    ShareOfFactor(pv, q, s);
  }

  /** `s * q == pv` with `q >= 1` puts `s` between zero and `pv`. */
  lemma ShareOfFactor(pv: real, q: real, s: real)
    requires pv >= 0.0 && q >= 1.0 && s * q == pv
    ensures 0.0 <= s <= pv
  {
    if s < 0.0 {
      MulLeftStrict(q, s, 0.0);
      assert q * s == s * q;
    }
    MulLeft(s, 1.0, q);
    assert s * q == q * s;
  }

  /** At a non-negative coupon on a non-negative balance the scheduled
      principal is between zero and the balance. */
  lemma ScheduledWithinBalance(ptc: real, wac: real, nper: nat, row: Row)
    requires RowHolds(ptc, wac, nper, row)
    requires wac >= 0.0 && row.beginningBalance >= 0.0
    ensures 0.0 <= row.scheduledPrincipal <= row.beginningBalance
  {
    AnnuityPrincipalWithin(wac / 12.0, nper, row.beginningBalance, row.mortgagePayment);
  }

  /** The principal part `pay - pv * rate` of an annuity payment at a
      non-negative rate is between zero and the balance. */
  lemma AnnuityPrincipalWithin(rate: real, nper: nat, pv: real, pay: real)
    requires rate >= 0.0 && nper >= 1 && pv >= 0.0
    requires IsAnnuityPayment(rate, nper, pv, pay)
    ensures 0.0 <= pay - pv * rate <= pv
  {
    if rate == 0.0 {
      assert pv * rate == 0.0;
      ShareOfFactor(pv, nper as real, pay);
    } else {
      GrowthAboveRate(rate, nper);
      AnnuityPrincipalBounds(pv, rate, Growth(rate, nper), pay);
    }
  }

  /** Compound growth over at least one period exceeds one by at least the rate. */
  lemma GrowthAboveRate(rate: real, nper: nat)
    requires rate >= 0.0 && nper >= 1
    ensures Growth(rate, nper) - 1.0 >= rate
  {
    Bernoulli(rate, nper);
    MulLeft(rate, 1.0, nper as real);
    assert (nper as real) * rate == rate * (nper as real);
  }

  /** Prepaying a share `smm` between 0 and 1 of what is left keeps both
      the prepayment and the rest between zero and what was left. */
  lemma PrepaidShare(left: real, smm: real)
    requires left >= 0.0 && 0.0 <= smm <= 1.0
    ensures 0.0 <= smm * left && 0.0 <= left - smm * left <= left
  {
    MulLeft(left, 0.0, smm);
    MulLeft(left, smm, 1.0);
    assert left * smm == smm * left;
  }

  /** At a non-negative coupon, on a non-negative balance and an SMM between
      0 and 1, the scheduled principal is at most the balance, the
      prepayment is not negative, and the row ends between zero and what the
      scheduled principal leaves. */
  lemma RowBounds(ptc: real, wac: real, nper: nat, row: Row)
    requires RowHolds(ptc, wac, nper, row)
    requires wac >= 0.0 && row.beginningBalance >= 0.0 && 0.0 <= row.smm <= 1.0
    ensures 0.0 <= row.scheduledPrincipal <= row.beginningBalance
    ensures 0.0 <= row.prepayment
    ensures 0.0 <= EndingBalance(row) <= row.beginningBalance - row.scheduledPrincipal
  {
    ScheduledWithinBalance(ptc, wac, nper, row);
    var left := row.beginningBalance - row.scheduledPrincipal;
    PrepaidShare(left, row.smm);
  }

  /** Balances never grow and never go negative. */
  lemma {:induction false} BalancesFall(ptc: real, wac: real, first: nat, balance: real, smms: seq<real>, table: seq<Row>, j: nat)
    requires IsWaterfall(ptc, wac, first, balance, smms, table)
    requires wac >= 0.0 && balance >= 0.0
    requires forall k :: 0 <= k < |smms| ==> 0.0 <= smms[k] <= 1.0
    requires j < |table|
    ensures 0.0 <= table[j].beginningBalance <= balance
    ensures 0.0 <= table[j].scheduledPrincipal <= table[j].beginningBalance && 0.0 <= table[j].prepayment
    ensures 0.0 <= EndingBalance(table[j]) <= table[j].beginningBalance
  {
    if j > 0 {
      BalancesFall(ptc, wac, first, balance, smms, table, j - 1);
    }
    assert RowHolds(ptc, wac, |smms| - j, table[j]) && table[j].smm == smms[j];
    RowBounds(ptc, wac, |smms| - j, table[j]);
  }

  // ---------------------------------------------------------------------
  // Without prepayments the table follows the scheduled balances

  /** The annuity equation one period on, at a non-zero rate: `t1` is the
      growth over one period fewer than `t`. */
  lemma LevelStep(b: real, pay: real, r: real, t: real, t1: real)
    requires r != 0.0 && t == t1 * (1.0 + r)
    requires b * t == pay * ((t - 1.0) / r)
    ensures (b * (1.0 + r) - pay) * t1 == pay * ((t1 - 1.0) / r)
  {
    var q := (t - 1.0) / r;
    assert q * r == t - 1.0;
    var e := b * (1.0 + r) - pay;
    assert e * t1 * r == pay * (t1 - 1.0) by {
      calc {
        e * t1 * r;
        b * t * r - pay * t1 * r;
        pay * q * r - pay * t1 * r;
        pay * (t - 1.0) - pay * t1 * r;
        pay * (t1 * (1.0 + r) - 1.0 - t1 * r);
      }
    }
    assert (t1 - 1.0) / r * r == t1 - 1.0;
    CancelFactor(e * t1, pay * ((t1 - 1.0) / r), r);
  }

  /** The annuity payment is level: after one payment (and a period's
      interest) the rest of the loan is paid off by the same payment over
      one period fewer. */
  lemma LevelPayment(rate: real, nper: nat, pv: real, pay: real)
    requires nper >= 2 && IsAnnuityPayment(rate, nper, pv, pay)
    ensures IsAnnuityPayment(rate, nper - 1, pv * (1.0 + rate) - pay, pay)
  {
    if rate == 0.0 {
      assert pay * ((nper - 1) as real) == pay * (nper as real) - pay;
    } else {
      GrowthSucc(rate, nper - 1);
      LevelStep(pv, pay, rate, Growth(rate, nper), Growth(rate, nper - 1));
    }
  }

  /** Two payments that both retire the same annuity are equal. */
  lemma AnnuityPaymentSame(rate: real, nper: nat, pv: real, p1: real, p2: real)
    requires nper >= 1 && AnnuityDefined(rate, nper)
    requires IsAnnuityPayment(rate, nper, pv, p1) && IsAnnuityPayment(rate, nper, pv, p2)
    ensures p1 == p2
  {
    if rate == 0.0 {
      CancelFactor(p1, p2, nper as real);
    } else {
      var t := Growth(rate, nper);
      assert (t - 1.0) / rate != 0.0;
      CancelFactor(p1, p2, (t - 1.0) / rate);
    }
  }

  /** The payment that retires what is left after one level payment is
      that same payment. */
  lemma LevelPaymentKept(rate: real, nper: nat, pv: real, pay: real, next: real)
    requires nper >= 2 && AnnuityDefined(rate, nper - 1)
    requires IsAnnuityPayment(rate, nper, pv, pay)
    requires IsAnnuityPayment(rate, nper - 1, pv * (1.0 + rate) - pay, next)
    ensures next == pay
  {
    LevelPayment(rate, nper, pv, pay);
    AnnuityPaymentSame(rate, nper - 1, pv * (1.0 + rate) - pay, pay, next);
  }

  /** A month without prepayment and the month after it: the next month
      starts with this month's balance plus interest at the gross coupon,
      less the payment, and pays the same payment. */
  lemma ZeroSmmPair(ptc: real, wac: real, n: nat, row: Row, next: Row)
    requires n >= 2 && RowHolds(ptc, wac, n, row) && RowHolds(ptc, wac, n - 1, next)
    requires row.smm == 0.0 && next.beginningBalance == EndingBalance(row)
    ensures row.prepayment == 0.0 && row.totalPrincipal == row.scheduledPrincipal
    ensures next.beginningBalance == row.beginningBalance * (1.0 + wac / 12.0) - row.mortgagePayment
    ensures next.mortgagePayment == row.mortgagePayment
  {
    var r := wac / 12.0;
    var bal := row.beginningBalance;
    assert row.prepayment == 0.0 by {
      assert row.prepayment == 0.0 * (bal - row.scheduledPrincipal);
    }
    EndingWithoutPrepayment(bal, row.mortgagePayment, r, row.scheduledPrincipal, row.totalPrincipal);
    LevelPaymentKept(r, n, bal, row.mortgagePayment, next.mortgagePayment);
  }

  /** With no prepayment a month ends with its balance plus interest less
      the payment. */
  lemma EndingWithoutPrepayment(bal: real, pay: real, r: real, scheduled: real, total: real)
    requires scheduled == pay - bal * r && total == scheduled + 0.0
    ensures bal - total == bal * (1.0 + r) - pay
  {
  }

  lemma ZeroSmmNext(ptc: real, wac: real, first: nat, balance: real, smms: seq<real>, table: seq<Row>, j: nat)
    requires IsWaterfall(ptc, wac, first, balance, smms, table)
    requires j + 1 < |table| && smms[j] == 0.0
    ensures table[j + 1].beginningBalance == table[j].beginningBalance * (1.0 + wac / 12.0) - table[j].mortgagePayment
    ensures table[j + 1].mortgagePayment == table[j].mortgagePayment
  {
    var n := |smms| - j;
    assert RowHolds(ptc, wac, n, table[j]) && table[j].smm == smms[j];
    assert RowHolds(ptc, wac, |smms| - (j + 1), table[j + 1]);
    assert |smms| - (j + 1) == n - 1;
    ZeroSmmPair(ptc, wac, n, table[j], table[j + 1]);
  }

  /** The balance of a loan that accrues interest at `r` and pays `pay`
      each period, after `j` periods. */
  function LevelBalance(p: real, r: real, pay: real, j: nat): real {
    if j == 0 then p else LevelBalance(p, r, pay, j - 1) * (1.0 + r) - pay
  }

  /** A balance that grows by the rate and falls by a level payment each
      period: the closed form one period on. */
  lemma LevelRecurrence(b: real, b1: real, pay: real, r: real, p: real, a: real, a1: real)
    requires b1 == b * (1.0 + r) - pay && a1 == a * (1.0 + r)
    requires b * r == p * a * r - pay * (a - 1.0)
    ensures b1 * r == p * a1 * r - pay * (a1 - 1.0)
  {
    calc {
      b1 * r;
      (b * r) * (1.0 + r) - pay * r;
      (p * a * r - pay * (a - 1.0)) * (1.0 + r) - pay * r;
      p * (a * (1.0 + r)) * r - pay * (a * (1.0 + r) - 1.0);
    }
  }

  /** The closed form of the level-payment balance: with `x = 1 + r`,
      `b_j * r == p * x^j * r - pay * (x^j - 1)`. */
  lemma {:induction false} LevelBalanceClosed(p: real, r: real, pay: real, j: nat)
    ensures LevelBalance(p, r, pay, j) * r == p * Growth(r, j) * r - pay * (Growth(r, j) - 1.0)
  {
    if j == 0 {
      assert Growth(r, 0) == 1.0;
    } else {
      LevelBalanceClosed(p, r, pay, j - 1);
      GrowthSucc(r, j - 1);
      var b, a := LevelBalance(p, r, pay, j - 1), Growth(r, j - 1);
      assert LevelBalance(p, r, pay, j) == b * (1.0 + r) - pay;
      LevelRecurrence(b, LevelBalance(p, r, pay, j), pay, r, p, a, Growth(r, j));
    }
  }

  /** The closed form of a level-payment balance, with the payment that
      retires `p` over the whole term (growth `n`), is the scheduled share
      `(n - a) / (n - 1)` of `p`. */
  lemma ClosedShare(b: real, p: real, pay: real, r: real, a: real, n: real)
    requires r != 0.0 && n != 1.0
    requires b * r == p * a * r - pay * (a - 1.0)
    requires p * n == pay * ((n - 1.0) / r)
    ensures b * (n - 1.0) == p * (n - a)
  {
    assert pay * (n - 1.0) == p * n * r by {
      assert (n - 1.0) / r * r == n - 1.0;
    }
    calc {
      b * (n - 1.0) * r;
      (p * a * r - pay * (a - 1.0)) * (n - 1.0);
      p * a * r * (n - 1.0) - (pay * (n - 1.0)) * (a - 1.0);
      p * a * r * (n - 1.0) - p * n * r * (a - 1.0);
      p * (n - a) * r;
    }
    CancelFactor(b * (n - 1.0), p * (n - a), r);
  }

  /** The scheduled share in the closed form of `BalancePercent`. */
  lemma PercentOfShare(bal: real, p: real, n: real, a: real)
    requires n != 1.0 && bal * (n - 1.0) == p * (n - a)
    ensures (1.0 - (a - 1.0) / (n - 1.0)) * p == bal
  {
    var m := n - 1.0;
    var u := 1.0 - (a - 1.0) / m;
    assert u * m == n - a by {
      assert (a - 1.0) / m * m == a - 1.0;
    }
    calc {
      u * p * m;
      (u * m) * p;
      (n - a) * p;
      bal * m;
    }
    CancelFactor(u * p, bal, m);
  }

  /** The scheduled share of a balance in closed form. */
  lemma ShareFromClosed(b: real, p: real, pay: real, r: real, a: real, n: real)
    requires r != 0.0 && n != 1.0
    requires b * r == p * a * r - pay * (a - 1.0)
    requires p * n == pay * ((n - 1.0) / r)
    ensures (1.0 - (a - 1.0) / (n - 1.0)) * p == b
  {
    ClosedShare(b, p, pay, r, a, n);
    PercentOfShare(b, p, n, a);
  }

  /** Paying the annuity payment of `p` over `nper` periods leaves after
      `j` periods the share `scheduled_balance_percent_for_period` gives
      for period `j`. */
  lemma LevelBalanceShare(rate: real, nper: nat, p: real, pay: real, j: nat)
    requires rate != 0.0 && nper >= 1 && AnnuityDefined(rate, nper)
    requires IsAnnuityPayment(rate, nper, p, pay)
    ensures BalancePercent(rate, nper, j).Success?
    ensures BalancePercent(rate, nper, j).value * p == LevelBalance(p, rate, pay, j)
  {
    var a, n := Growth(rate, j), Growth(rate, nper);
    var b := LevelBalance(p, rate, pay, j);
    assert b * rate == p * a * rate - pay * (a - 1.0) by {
      LevelBalanceClosed(p, rate, pay, j);
    }
    ShareFromClosed(b, p, pay, rate, a, n);
    PercentInGrowth(rate, nper, j);
  }

  /** `scheduled_balance_percent_for_period` in terms of `Growth`. */
  lemma PercentInGrowth(rate: real, nper: nat, j: nat)
    requires rate != 0.0 && AnnuityDefined(rate, nper)
    ensures BalancePercent(rate, nper, j)
      == Success(1.0 - (Growth(rate, j) - 1.0) / (Growth(rate, nper) - 1.0))
  {
  }

  /** The same, read off the `scheduled_balances` table. */
  lemma LevelBalanceOnSchedule(rate: real, nper: nat, p: real, pay: real, j: nat)
    requires rate != 0.0 && nper >= 1 && AnnuityDefined(rate, nper)
    requires IsAnnuityPayment(rate, nper, p, pay)
    requires j <= nper
    ensures Schedule(rate, nper, p).Success?
    ensures Schedule(rate, nper, p).value[j].balance == LevelBalance(p, rate, pay, j)
  {
    LevelBalanceShare(rate, nper, p, pay, 0);
    LevelBalanceShare(rate, nper, p, pay, j);
  }

  /** Without prepayment every month pays the first month's payment and
      starts with the level-payment balance of the months before it. */
  lemma {:induction false} ZeroSmmLevel(ptc: real, wac: real, first: nat, balance: real, smms: seq<real>, table: seq<Row>, j: nat)
    requires IsWaterfall(ptc, wac, first, balance, smms, table)
    requires forall k :: 0 <= k < |smms| ==> smms[k] == 0.0
    requires j < |table|
    ensures table[j].mortgagePayment == table[0].mortgagePayment
    ensures table[j].beginningBalance == LevelBalance(balance, wac / 12.0, table[0].mortgagePayment, j)
  {
    if j > 0 {
      ZeroSmmLevel(ptc, wac, first, balance, smms, table, j - 1);
      ZeroSmmNext(ptc, wac, first, balance, smms, table, j - 1);
    }
  }

  /** With every SMM zero nothing is prepaid and all principal is
      scheduled principal, whatever the coupon. */
  lemma ZeroSmmNoPrepayment(ptc: real, wac: real, first: nat, balance: real, smms: seq<real>, table: seq<Row>, j: nat)
    requires IsWaterfall(ptc, wac, first, balance, smms, table)
    requires forall k :: 0 <= k < |smms| ==> smms[k] == 0.0
    requires j < |table|
    ensures table[j].prepayment == 0.0 && table[j].totalPrincipal == table[j].scheduledPrincipal
  {
    assert RowHolds(ptc, wac, |smms| - j, table[j]) && table[j].smm == smms[j];
  }

  /** With every SMM zero and a non-zero coupon nothing is prepaid, all
      principal is scheduled principal, and every row starts with the
      balance `scheduled_balances` lists for its period. */
  lemma ZeroSmmFollowsSchedule(ptc: real, wac: real, first: nat, balance: real, smms: seq<real>, table: seq<Row>, j: nat)
    requires IsWaterfall(ptc, wac, first, balance, smms, table)
    requires wac != 0.0
    requires forall k :: 0 <= k < |smms| ==> smms[k] == 0.0
    requires j < |table|
    ensures table[j].prepayment == 0.0 && table[j].totalPrincipal == table[j].scheduledPrincipal
    ensures Schedule(wac / 12.0, |smms|, balance).Success?
    ensures table[j].beginningBalance == Schedule(wac / 12.0, |smms|, balance).value[j].balance
  {
    var N := |smms|;
    assert RowHolds(ptc, wac, N, table[0]) && table[0].beginningBalance == balance;
    assert RowHolds(ptc, wac, N - j, table[j]) && table[j].smm == 0.0;
    ZeroSmmLevel(ptc, wac, first, balance, smms, table, j);
    LevelBalanceOnSchedule(wac / 12.0, N, balance, table[0].mortgagePayment, j);
  }

  // ---------------------------------------------------------------------
  // The table of a pool

  /** The SMM column of a table. */
  function SmmColumn(table: seq<Row>): (smms: seq<real>)
    ensures |smms| == |table|
  {
    seq(|table|, j requires 0 <= j < |table| => table[j].smm)
  }

  /** The table exists exactly when the wam is not negative, the curve
      covers every index read (`360 - wam` up to `359`, negative ones
      counted from the end) and every remaining term has a finite payment.
      A negative wam fails on the first `np.zeros(wam)`. */
  lemma WaterfallOnDefined(pool: Pool, curve: seq<real>, smmOf: real -> real)
    ensures WaterfallOn(pool, curve, smmOf).Success? <==>
      pool.wam >= 0 && (pool.wam == 0 || (Horizon <= |curve| && pool.wam <= Horizon + |curve|)) &&
      AnnuitiesDefined(pool.wac / 12.0, pool.wam)
    ensures pool.wam < 0 ==> WaterfallOn(pool, curve, smmOf) == Failure(NegativeDimensions(pool.wam))
  {
    if pool.wam >= 0 {
      SmmsDefined(curve, Horizon - pool.wam, pool.psaSpeed, smmOf, 1, pool.wam);
    }
  }

  /** A curve shorter than 360 values fails on the first index past its
      end when the wam is between 1 and 360. */
  lemma WaterfallOnShortCurve(pool: Pool, curve: seq<real>, smmOf: real -> real)
    requires 1 <= pool.wam <= Horizon && |curve| < Horizon
    ensures WaterfallOn(pool, curve, smmOf)
      == Failure(IndexOutOfRange(if Horizon - pool.wam < |curve| then |curve| else Horizon - pool.wam))
  {
    SmmsPastEnd(curve, Horizon - pool.wam, pool.psaSpeed, smmOf, 1, pool.wam);
  }

  /** The table of a pool is the waterfall of its original balance under
      its own SMM column, months numbered from 1. */
  lemma WaterfallTable(pool: Pool, curve: seq<real>, smmOf: real -> real)
    requires WaterfallOn(pool, curve, smmOf).Success?
    ensures var table := WaterfallOn(pool, curve, smmOf).value;
      IsWaterfall(pool.passThruCpn, pool.wac, 1, pool.originalBalance, SmmColumn(table), table)
  {
    var smms := Smms(curve, Horizon - pool.wam, pool.psaSpeed, smmOf, 1, pool.wam).value;
    RowsIsWaterfall(pool.passThruCpn, pool.wac, 1, pool.originalBalance, smms);
    assert SmmColumn(WaterfallOn(pool, curve, smmOf).value) == smms;
  }

  /** The SMM of month `j + 1` is that of period `j + 1`: the CPR at curve
      index `j + 360 - wam`, scaled by the PSA speed. */
  lemma WaterfallSmm(pool: Pool, curve: seq<real>, smmOf: real -> real, j: nat)
    requires WaterfallOn(pool, curve, smmOf).Success?
    requires j < |WaterfallOn(pool, curve, smmOf).value|
    ensures PeriodSmm(curve, Horizon - pool.wam, pool.psaSpeed, smmOf, j + 1).Some?
    ensures WaterfallOn(pool, curve, smmOf).value[j].smm
      == PeriodSmm(curve, Horizon - pool.wam, pool.psaSpeed, smmOf, j + 1).value
  {
    var age := Horizon - pool.wam;
    var smms := Smms(curve, age, pool.psaSpeed, smmOf, 1, pool.wam).value;
    RowsIsWaterfall(pool.passThruCpn, pool.wac, 1, pool.originalBalance, smms);
    SmmsAt(curve, age, pool.psaSpeed, smmOf, 1, pool.wam, j + 1);
  }

  /** Every table of at least one month pays down the original balance
      in full and ends at zero. */
  lemma WaterfallPaysOff(pool: Pool, curve: seq<real>, smmOf: real -> real)
    requires WaterfallOn(pool, curve, smmOf).Success? && pool.wam >= 1
    ensures SumPrincipal(WaterfallOn(pool, curve, smmOf).value) == pool.originalBalance
    ensures EndingBalance(WaterfallOn(pool, curve, smmOf).value[pool.wam - 1]) == 0.0
  {
    var table := WaterfallOn(pool, curve, smmOf).value;
    WaterfallTable(pool, curve, smmOf);
    PaysOff(pool.passThruCpn, pool.wac, 1, pool.originalBalance, SmmColumn(table), table);
  }

  /** Every SMM of the table is in `[0, 1]` when the speed-scaled CPRs
      are and the conversion keeps `[0, 1]`. */
  lemma WaterfallSmmsBounded(pool: Pool, curve: seq<real>, smmOf: real -> real)
    requires WaterfallOn(pool, curve, smmOf).Success?
    requires ScaledWithinUnit(curve, pool.psaSpeed)
    requires KeepsUnit(smmOf)
    ensures forall k :: 0 <= k < pool.wam ==> 0.0 <= WaterfallOn(pool, curve, smmOf).value[k].smm <= 1.0
  {
    forall k | 0 <= k < pool.wam
      ensures 0.0 <= WaterfallOn(pool, curve, smmOf).value[k].smm <= 1.0
    {
      WaterfallSmm(pool, curve, smmOf, k);
      PeriodSmmBounded(curve, Horizon - pool.wam, pool.psaSpeed, smmOf, k + 1);
    }
  }

  /** With SMMs between 0 and 1 (a conversion that maps rates in `[0, 1]`
      into `[0, 1]`, and speed-scaled CPRs in `[0, 1]`) and a non-negative
      coupon and balance, balances never go negative or grow, and the
      scheduled principal and prepayment are non-negative. */
  lemma WaterfallBalancesFall(pool: Pool, curve: seq<real>, smmOf: real -> real, j: nat)
    requires WaterfallOn(pool, curve, smmOf).Success?
    requires pool.wac >= 0.0 && pool.originalBalance >= 0.0
    requires ScaledWithinUnit(curve, pool.psaSpeed)
    requires KeepsUnit(smmOf)
    requires j < pool.wam
    ensures var row := WaterfallOn(pool, curve, smmOf).value[j];
      0.0 <= row.beginningBalance <= pool.originalBalance &&
      0.0 <= row.scheduledPrincipal <= row.beginningBalance && 0.0 <= row.prepayment &&
      0.0 <= EndingBalance(row) <= row.beginningBalance
  {
    var table := WaterfallOn(pool, curve, smmOf).value;
    var smms := SmmColumn(table);
    WaterfallSmmsBounded(pool, curve, smmOf);
    WaterfallTable(pool, curve, smmOf);
    forall k | 0 <= k < |smms|
      ensures 0.0 <= smms[k] <= 1.0
    {
      assert smms[k] == table[k].smm;
    }
    BalancesFall(pool.passThruCpn, pool.wac, 1, pool.originalBalance, smms, table, j);
  }

  /** At zero PSA speed, with a conversion that returns the twelfth-root
      SMM of a zero CPR, nothing is prepaid and all principal is scheduled
      principal, whatever the coupon. */
  lemma WaterfallNoPrepayment(pool: Pool, curve: seq<real>, smmOf: real -> real, j: nat)
    requires WaterfallOn(pool, curve, smmOf).Success?
    requires pool.psaSpeed == 0.0 && IsSmmOf(smmOf(0.0), 0.0)
    requires j < pool.wam
    ensures var row := WaterfallOn(pool, curve, smmOf).value[j];
      row.prepayment == 0.0 && row.totalPrincipal == row.scheduledPrincipal
  {
    SmmUnique(smmOf(0.0), 0.0, 0.0);
    var table := WaterfallOn(pool, curve, smmOf).value;
    var smms := SmmColumn(table);
    WaterfallTable(pool, curve, smmOf);
    forall k | 0 <= k < |smms|
      ensures smms[k] == 0.0
    {
      WaterfallSmm(pool, curve, smmOf, k);
    }
    ZeroSmmNoPrepayment(pool.passThruCpn, pool.wac, 1, pool.originalBalance, smms, table, j);
  }

  /** At zero PSA speed, with a conversion that returns the twelfth-root
      SMM of a zero CPR, nothing is prepaid, and at a non-zero coupon every
      month starts with the balance `scheduled_balances` lists for its
      period. */
  lemma WaterfallWithoutPrepayment(pool: Pool, curve: seq<real>, smmOf: real -> real, j: nat)
    requires WaterfallOn(pool, curve, smmOf).Success?
    requires pool.psaSpeed == 0.0 && IsSmmOf(smmOf(0.0), 0.0) && pool.wac != 0.0
    requires j < pool.wam
    ensures var row := WaterfallOn(pool, curve, smmOf).value[j];
      row.prepayment == 0.0 && row.totalPrincipal == row.scheduledPrincipal
    ensures Schedule(pool.wac / 12.0, pool.wam, pool.originalBalance).Success?
    ensures WaterfallOn(pool, curve, smmOf).value[j].beginningBalance
      == Schedule(pool.wac / 12.0, pool.wam, pool.originalBalance).value[j].balance
  {
    SmmUnique(smmOf(0.0), 0.0, 0.0);
    var table := WaterfallOn(pool, curve, smmOf).value;
    var smms := SmmColumn(table);
    WaterfallTable(pool, curve, smmOf);
    forall k | 0 <= k < |smms|
      ensures smms[k] == 0.0
    {
      WaterfallSmm(pool, curve, smmOf, k);
    }
    ZeroSmmFollowsSchedule(pool.passThruCpn, pool.wac, 1, pool.originalBalance, smms, table, j);
  }

  /** For a description whose last segment runs to the end of the curve,
      with a wam of at most 360 and finite payments: the table exists for
      every wam when there are two or more segments, and for a single
      segment such as `'6'` only when the wam is 0; otherwise the curve
      has 359 values and the last month's index 359 is out of range. */
  lemma CreateWaterfallOpenEnd(pool: Pool, smmOf: real -> real)
    requires CprCurve(pool.cprDescription).Success?
    requires var texts := Segments(pool.cprDescription);
      ParseSegment(texts[|texts| - 1]).Success? && ParseSegment(texts[|texts| - 1]).value.length.None?
    requires 0 <= pool.wam <= Horizon && AnnuitiesDefined(pool.wac / 12.0, pool.wam)
    ensures CreateWaterfall(pool, smmOf).Success? <==> pool.wam == 0 || |Segments(pool.cprDescription)| >= 2
    ensures |Segments(pool.cprDescription)| == 1 && pool.wam >= 1 ==>
      CreateWaterfall(pool, smmOf) == Failure(IndexOutOfRange(Horizon - 1))
  {
    var curve := CprCurve(pool.cprDescription).value;
    CurveLengthOpenEnd(pool.cprDescription);
    assert CreateWaterfall(pool, smmOf) == WaterfallOn(pool, curve, smmOf);
    WaterfallOnCurveLength(pool, curve, smmOf, |Segments(pool.cprDescription)|);
  }

  /** A single segment without `for` fails every pool with a wam from 1
      to 360 on curve index 359, before any payment is computed. */
  lemma SingleOpenSegmentFails(pool: Pool, smmOf: real -> real)
    requires CprCurve(pool.cprDescription).Success?
    requires |Segments(pool.cprDescription)| == 1
    requires var texts := Segments(pool.cprDescription);
      ParseSegment(texts[|texts| - 1]).Success? && ParseSegment(texts[|texts| - 1]).value.length.None?
    requires 1 <= pool.wam <= Horizon
    ensures CreateWaterfall(pool, smmOf) == Failure(IndexOutOfRange(Horizon - 1))
  {
    var curve := CprCurve(pool.cprDescription).value;
    CurveLengthOpenEnd(pool.cprDescription);
    assert CreateWaterfall(pool, smmOf) == WaterfallOn(pool, curve, smmOf);
    WaterfallOnOneShort(pool, curve, smmOf);
  }

  /** A curve of 359 values fails on index 359 for a wam from 1 to 360. */
  lemma WaterfallOnOneShort(pool: Pool, curve: seq<real>, smmOf: real -> real)
    requires 1 <= pool.wam <= Horizon && |curve| == Horizon - 1
    ensures WaterfallOn(pool, curve, smmOf) == Failure(IndexOutOfRange(Horizon - 1))
  {
    WaterfallOnShortCurve(pool, curve, smmOf);
  }

  lemma WaterfallOnCurveLength(pool: Pool, curve: seq<real>, smmOf: real -> real, n: nat)
    requires |curve| == Horizon - 2 + n && n >= 1
    requires 0 <= pool.wam <= Horizon && AnnuitiesDefined(pool.wac / 12.0, pool.wam)
    ensures WaterfallOn(pool, curve, smmOf).Success? <==> pool.wam == 0 || n >= 2
    ensures n == 1 && pool.wam >= 1 ==> WaterfallOn(pool, curve, smmOf) == Failure(IndexOutOfRange(Horizon - 1))
  {
    WaterfallOnDefined(pool, curve, smmOf);
    if n == 1 && pool.wam >= 1 {
      WaterfallOnShortCurve(pool, curve, smmOf);
    }
  }
}

=== FILE: curve_examples.dfy ===
/** Worked examples of the CPR description language: which descriptions
    build a curve, what `'6'` and the default description build, and a
    segment that fails because `float()` keeps an information separator
    that `strip()` would have removed. */
module CurveExamples {
  import opened Wrappers
  import opened PyStr
  import opened PyFloat
  import opened NumpyLinspace
  import opened RealPow
  import opened PrepaymentCalcs

  // ---------------------------------------------------------------------
  // Segments whose words are known

  /** A segment of one number `x` is flat at `x` percent and open-ended. */
  lemma OneWordSegment(text: string, x: real)
    requires |Words(text)| == 1 && ParseFloat(Words(text)[0]) == Some(x)
    ensures ParseSegment(text) == Success(Segment(Flat(x / 100.0), None))
  {
    TokenAt(text, 0);
    OneWordReads(Tokens(text), x);
  }

  /** The reading of a lone number from its token. */
  lemma OneWordReads(ws: seq<Word>, x: real)
    requires |ws| == 1 && ws[0].number == Some(x)
    ensures ReadSegment(ws) == Success(Segment(Flat(x / 100.0), None))
  {
  }

  /** `a ramp b for c` ramps from `a` to `b` percent over `c` periods. */
  lemma RampForSegment(text: string, x: real, y: real, z: real)
    requires |Words(text)| == 5
    requires ParseFloat(Words(text)[0]) == Some(x)
    requires Words(text)[1] == "ramp" && ParseFloat(Words(text)[2]) == Some(y)
    requires Words(text)[3] == "for" && ParseFloat(Words(text)[4]) == Some(z)
    ensures ParseSegment(text) == Success(Segment(Ramp(x / 100.0, y / 100.0), Some(z)))
  {
    var ws := Tokens(text);
    var words := Words(text);
    TokenAt(text, 0);
    TokenAt(text, 1);
    TokenAt(text, 2);
    TokenAt(text, 3);
    TokenAt(text, 4);
    NumberNotKeyword(words[2]);
    NumberNotKeyword(words[4]);
    RampForReads(ws, x, y, z);
  }

  /** The reading of `a ramp b for c` from its tokens. */
  lemma RampForReads(ws: seq<Word>, x: real, y: real, z: real)
    requires |ws| == 5
    requires ws[0].number == Some(x)
    requires ws[1].text == "ramp" && ws[2].number == Some(y) && !IsKeyword(ws[2])
    requires ws[3].text == "for" && ws[4].number == Some(z) && !IsKeyword(ws[4])
    ensures ReadSegment(ws) == Success(Segment(Ramp(x / 100.0, y / 100.0), Some(z)))
  {
    var ramped := Segment(Ramp(x / 100.0, y / 100.0), None);
    var done := ramped.(length := Some(z));
    assert Scan(ws, 4, done) == Success(done);
    assert Scan(ws, 3, ramped) == Success(done);
    assert Scan(ws, 2, ramped) == Success(done);
  }

  // ---------------------------------------------------------------------
  // Curves of one and two segments

  /** A description of one segment builds that segment's linspace. */
  lemma OneSegmentCurve(description: string, seg: Segment, n: nat)
    requires |Segments(description)| == 1 && ParseAll(Segments(description))[0] == Success(seg)
    requires Count(seg, 1) == Success(n)
    ensures CprCurve(description) == Success(Linspace(seg.shape.Start(), seg.shape.End(), n))
  {
    LayoutOne(ParseAll(Segments(description)), seg, n);
  }

  lemma LayoutOne(parsed: seq<Result<Segment, CurveError>>, seg: Segment, n: nat)
    requires |parsed| == 1 && parsed[0] == Success(seg)
    requires Count(seg, 1) == Success(n)
    ensures Layout(parsed, CurveState([], 1)) == Success(CurveState(Linspace(seg.shape.Start(), seg.shape.End(), n), n))
  {
    var line := Linspace(seg.shape.Start(), seg.shape.End(), n);
    assert Place(seg, CurveState([], 1)) == Success(CurveState([] + line, n));
    assert [] + line == line;
    assert parsed[1..] == [];
  }

  /** A description of two segments builds the first linspace and then the
      second, which starts on the period the first ends at. */
  lemma TwoSegmentCurve(description: string, a: Segment, b: Segment, n: nat, m: nat)
    requires |Segments(description)| == 2
    requires ParseAll(Segments(description))[0] == Success(a) && ParseAll(Segments(description))[1] == Success(b)
    requires Count(a, 1) == Success(n) && Count(b, n) == Success(m)
    ensures CprCurve(description) ==
      Success(Linspace(a.shape.Start(), a.shape.End(), n) + Linspace(b.shape.Start(), b.shape.End(), m))
  {
    LayoutTwo(ParseAll(Segments(description)), a, b, n, m);
  }

  lemma LayoutTwo(parsed: seq<Result<Segment, CurveError>>, a: Segment, b: Segment, n: nat, m: nat)
    requires |parsed| == 2 && parsed[0] == Success(a) && parsed[1] == Success(b)
    requires Count(a, 1) == Success(n) && Count(b, n) == Success(m)
    ensures Layout(parsed, CurveState([], 1)).Success?
    ensures Layout(parsed, CurveState([], 1)).value.values ==
      Linspace(a.shape.Start(), a.shape.End(), n) + Linspace(b.shape.Start(), b.shape.End(), m)
  {
    var first := Linspace(a.shape.Start(), a.shape.End(), n);
    var second := Linspace(b.shape.Start(), b.shape.End(), m);
    var mid := CurveState(first, n);
    var last := CurveState(first + second, n + m - 1);
    assert Layout(parsed, CurveState([], 1)) == Success(last) by {
      assert Place(a, CurveState([], 1)) == Success(mid) by {
        assert [] + first == first;
        PlaceWith(a, CurveState([], 1), n, mid);
      }
      assert Place(b, mid) == Success(last) by {
        PlaceWith(b, mid, m, last);
      }
      LayoutPair(parsed, CurveState([], 1), a, b, mid, last);
    }
  }

  /** Two placed segments lay out to where the second ends. */
  lemma LayoutPair(parsed: seq<Result<Segment, CurveError>>, st: CurveState, a: Segment, b: Segment,
                   mid: CurveState, last: CurveState)
    requires |parsed| == 2 && parsed[0] == Success(a) && parsed[1] == Success(b)
    requires Place(a, st) == Success(mid) && Place(b, mid) == Success(last)
    ensures Layout(parsed, st) == Success(last)
  {
    var rest := parsed[1..];
    assert rest[0] == parsed[1] && rest[1..] == [];
    LayoutStep(parsed, st, a, mid);
    LayoutStep(rest, mid, b, last);
  }

  /** Laying out a placed first segment continues from where it ends. */
  lemma LayoutStep(parsed: seq<Result<Segment, CurveError>>, st: CurveState, seg: Segment, next: CurveState)
    requires parsed != [] && parsed[0] == Success(seg)
    requires Place(seg, st) == Success(next)
    ensures Layout(parsed, st) == Layout(parsed[1..], next)
  {
  }

  /** Placing a segment whose length is known appends its linspace. */
  lemma PlaceWith(seg: Segment, st: CurveState, n: nat, next: CurveState)
    requires Count(seg, st.period) == Success(n)
    requires next == CurveState(st.values + Linspace(seg.shape.Start(), seg.shape.End(), n), st.period + n - 1)
    ensures Place(seg, st) == Success(next)
  {
  }

  /** An open flat segment alone gives 359 values, all at its level: one
      short of a 360-month pool. */
  lemma OpenFlatCurve(description: string, level: real)
    requires |Segments(description)| == 1
    requires ParseAll(Segments(description))[0] == Success(Segment(Flat(level), None))
    ensures CprCurve(description).Success?
    ensures |CprCurve(description).value| == Horizon - 1
    ensures forall i :: 0 <= i < |CprCurve(description).value| ==> CprCurve(description).value[i] == level
  {
    var seg := Segment(Flat(level), None);
    assert Count(seg, 1) == Success(359);
    OneSegmentCurve(description, seg, 359);
    LinspaceFlat(level, 359);
  }

  // ---------------------------------------------------------------------
  // Reading the literal words

  lemma SixDigits()
    ensures "6" != [] && AllDigits("6") && DigitsValue("6") == 6
  {
  }

  lemma ThirtyDigits()
    ensures "30" != [] && AllDigits("30") && DigitsValue("30") == 30
  {
    assert "30"[..1] == "3";
    assert "3"[..0] == "";
  }

  lemma PointTwoParts()
    ensures AllDigits("") && ".2" == "" + ".2" && ".2"[1..] == "2" && AllDigits("2")
    ensures DigitsValue("") as real + FractionValue("2") == 0.2
  {
    assert DigitsValue("2") == 2;
    assert Pow10(1) == 10.0;
  }

  lemma ReadSix(w: string)
    requires w == "6"
    ensures ParseFloat(w) == Some(6.0)
  {
    SixDigits();
    ParseFloatDigits(w);
  }

  lemma ReadThirty(w: string)
    requires w == "30"
    ensures ParseFloat(w) == Some(30.0)
  {
    ThirtyDigits();
    ParseFloatDigits(w);
  }

  lemma ReadPointTwo(w: string)
    requires w == ".2"
    ensures ParseFloat(w) == Some(0.2)
  {
    PointTwoParts();
    ParseFloatDecimal("", w);
  }

  /** A word with one leading space strips to the word. */
  lemma StripLeadingSpace(s: string, t: string)
    requires s == [' '] + t
    requires t != [] && !IsSpace(t[0]) && !IsSpace(t[|t| - 1])
    ensures Strip(s) == t
  {
    assert s[1..] == t;
    assert StripLeft(s) == StripLeft(t) == t;
  }

  /** The words of a segment with no spaces inside it. */
  lemma SingleWord(text: string, w: string)
    requires w != [] && !IsSpace(w[0]) && !IsSpace(w[|w| - 1]) && ' ' !in w
    requires text == w || text == [' '] + w
    ensures Words(text) == [w]
  {
    if text == w {
      StripTrimmed(w);
    } else {
      StripLeadingSpace(text, w);
    }
    SplitFree(w, ' ');
  }

  // ---------------------------------------------------------------------
  // The description `6`

  lemma SixText(text: string)
    requires text == "6" || text == " 6"
    ensures Words(text) == ["6"]
  {
    SingleWord(text, "6");
  }

  /** `6` (or ` 6`) is a flat, open-ended 6% segment. */
  lemma SixParses(text: string)
    requires text == "6" || text == " 6"
    ensures ParseSegment(text) == Success(Segment(Flat(0.06), None))
  {
    SixText(text);
    ReadSix(Words(text)[0]);
    OneWordSegment(text, 6.0);
  }

  /** The description `6` builds 359 values, all 6%. */
  lemma SixCurve(description: string)
    requires description == "6"
    ensures CprCurve(description).Success?
    ensures |CprCurve(description).value| == 359
    ensures forall i :: 0 <= i < 359 ==> CprCurve(description).value[i] == 0.06
  {
    SplitFree(description, ',');
    SixParses(description);
    ParsedAt(Segments(description), 0);
    OpenFlatCurve(description, 0.06);
  }

  // ---------------------------------------------------------------------
  // The description `6\x1c 7`

  /** `float()` does not strip the information separator U+001C, although
      `str.isspace()` accepts it. */
  lemma SeparatorWord(w: string)
    requires w == "6\U{1C}"
    ensures ParseFloat(w) == None
  {
    assert IsSpace(w[1]) && !FloatSpace(w[1]);
  }

  lemma SeparatorWords(text: string)
    requires text == "6\U{1C} 7"
    ensures Words(text) == ["6\U{1C}", "7"]
  {
    var words := ["6\U{1C}", "7"];
    StripTrimmed(text);
    assert Join(words, ' ') == text;
    assert forall i :: 0 <= i < |words| ==> ' ' !in words[i];
    SplitJoin(words, ' ');
  }

  /** In `6\x1c 7` the separator survives `strip()` inside the text and
      ends the first word, which `float()` rejects. */
  lemma SeparatorSegmentFails(text: string)
    requires text == "6\U{1C} 7"
    ensures ParseSegment(text) == Failure(NotNumeric("6\U{1C}"))
  {
    SeparatorWords(text);
    TokenAt(text, 0);
    SeparatorWord(Words(text)[0]);
    ParseSegmentStart(text);
  }

  // ---------------------------------------------------------------------
  // The default description `.2 ramp 6 for 30, 6`

  lemma DefaultSegments(description: string)
    requires description == ".2 ramp 6 for 30, 6"
    ensures Segments(description) == [".2 ramp 6 for 30", " 6"]
  {
    var pieces := [".2 ramp 6 for 30", " 6"];
    assert Join(pieces, ',') == description;
    SplitJoin(pieces, ',');
  }

  lemma RampWords(text: string)
    requires text == ".2 ramp 6 for 30"
    ensures Words(text) == [".2", "ramp", "6", "for", "30"]
  {
    RampTrimmed(text);
    RampSplit(text);
  }

  lemma RampWordAt(words: seq<string>)
    requires words == [".2", "ramp", "6", "for", "30"]
    ensures |words| == 5
    ensures words[0] == ".2" && words[1] == "ramp" && words[2] == "6"
    ensures words[3] == "for" && words[4] == "30"
  {
  }

  lemma RampTrimmed(text: string)
    requires text == ".2 ramp 6 for 30"
    ensures Strip(text) == text
  {
    StripTrimmed(text);
  }

  lemma RampSplit(text: string)
    requires text == ".2 ramp 6 for 30"
    ensures Split(text, ' ') == [".2", "ramp", "6", "for", "30"]
  {
    var words := [".2", "ramp", "6", "for", "30"];
    assert Join(words, ' ') == text;
    assert forall i :: 0 <= i < |words| ==> ' ' !in words[i];
    SplitJoin(words, ' ');
  }

  /** `.2 ramp 6 for 30` ramps from 0.2% to 6% over 30 periods. */
  lemma RampParses(text: string)
    requires text == ".2 ramp 6 for 30"
    ensures ParseSegment(text) == Success(Segment(Ramp(0.002, 0.06), Some(30.0)))
  {
    RampWords(text);
    var words := Words(text);
    RampWordAt(words);
    ReadPointTwo(words[0]);
    ReadSix(words[2]);
    ReadThirty(words[4]);
    RampForSegment(text, 0.2, 6.0, 30.0);
  }

  /** A 30-period ramp from 0.2% to 6% followed by 330 values of 6% is the
      100% PSA benchmark from month 1 to month 360. */
  lemma RampThenFlatIsPsa(v: seq<real>, lo: real, hi: real, n: nat, m: nat)
    requires lo == 0.002 && hi == 0.06 && n == 30 && m == 330
    requires v == Linspace(lo, hi, n) + Linspace(hi, hi, m)
    ensures |v| == 360
    ensures forall i :: 0 <= i < 360 ==> v[i] == Psa(i + 1)
  {
    assert Step(lo, hi, n) == 0.002;
    LinspaceFlat(hi, m);
    forall i | 0 <= i < 360
      ensures v[i] == Psa(i + 1)
    {
      if i < n {
        LinspacePoint(lo, hi, n, i);
        assert v[i] == Linspace(lo, hi, n)[i] == lo + (i as real) * 0.002;
        assert Psa(i + 1) == ((i + 1) as real) * 0.002;
      } else {
        assert v[i] == Linspace(hi, hi, m)[i - n];
      }
    }
  }

  /** A segment with `for n`, for a whole `n`, gives `n` values. */
  lemma ForCount(seg: Segment, period: int, n: nat)
    requires seg.length == Some(n as real)
    ensures Count(seg, period) == Success(n)
  {
    assert (n as real).Floor == n;
  }

  /** An open segment starting at `period` gives the `m` values up to the
      horizon. */
  lemma OpenCount(seg: Segment, period: int, m: nat)
    requires seg.length.None? && period + m == Horizon
    ensures Count(seg, period) == Success(m)
  {
    assert (m as real).Floor == m;
  }

  /** A ramp from 0.2% to 6% over 30 periods followed by an open 6% builds
      100% PSA, month by month. */
  lemma RampThenOpenFlat(description: string, lo: real, hi: real, n: nat, m: nat)
    requires lo == 0.002 && hi == 0.06 && n == 30 && m == 330
    requires |Segments(description)| == 2
    requires ParseAll(Segments(description))[0] == Success(Segment(Ramp(lo, hi), Some(n as real)))
    requires ParseAll(Segments(description))[1] == Success(Segment(Flat(hi), None))
    ensures CprCurve(description).Success?
    ensures |CprCurve(description).value| == 360
    ensures forall i :: 0 <= i < 360 ==> CprCurve(description).value[i] == Psa(i + 1)
  {
    RampThenOpenFlatLine(description, lo, hi, n, m);
    CurveIsPsa(CprCurve(description), lo, hi, n, m);
  }

  lemma RampThenOpenFlatLine(description: string, lo: real, hi: real, n: nat, m: nat)
    requires n >= 1 && n + m == Horizon
    requires |Segments(description)| == 2
    requires ParseAll(Segments(description))[0] == Success(Segment(Ramp(lo, hi), Some(n as real)))
    requires ParseAll(Segments(description))[1] == Success(Segment(Flat(hi), None))
    ensures CprCurve(description) == Success(Linspace(lo, hi, n) + Linspace(hi, hi, m))
  {
    var ramp := Segment(Ramp(lo, hi), Some(n as real));
    var flat := Segment(Flat(hi), None);
    assert ramp.shape.Start() == lo && ramp.shape.End() == hi;
    assert flat.shape.Start() == hi && flat.shape.End() == hi;
    ForCount(ramp, 1, n);
    OpenCount(flat, n, m);
    TwoSegmentCurve(description, ramp, flat, n, m);
  }

  lemma CurveIsPsa(r: Result<seq<real>, CurveError>, lo: real, hi: real, n: nat, m: nat)
    requires lo == 0.002 && hi == 0.06 && n == 30 && m == 330
    requires r == Success(Linspace(lo, hi, n) + Linspace(hi, hi, m))
    ensures r.Success? && |r.value| == 360
    ensures forall i :: 0 <= i < 360 ==> r.value[i] == Psa(i + 1)
  {
    RampThenFlatIsPsa(r.value, lo, hi, n, m);
  }

  /** The default description builds 360 values: 100% PSA, month by month. */
  lemma DefaultCurve(description: string)
    requires description == ".2 ramp 6 for 30, 6"
    ensures CprCurve(description).Success?
    ensures |CprCurve(description).value| == 360
    ensures forall i :: 0 <= i < 360 ==> CprCurve(description).value[i] == Psa(i + 1)
  {
    DefaultSegments(description);
    RampParses(Segments(description)[0]);
    SixParses(Segments(description)[1]);
    ParsedAt(Segments(description), 0);
    ParsedAt(Segments(description), 1);
    RampThenOpenFlat(description, 0.002, 0.06, 30, 330);
  }
}

=== FILE: linspace.dfy ===
/** `numpy.linspace(start, stop, num)` with its default `endpoint=True`,
    evaluated over the reals. */
module NumpyLinspace {
  import opened RealPow

  /** The common difference of `num` evenly spaced points from `start` to `stop`. */
  function Step(start: real, stop: real, num: nat): real
    requires num >= 2
  {
    (stop - start) / ((num - 1) as real)
  }

  /** The first `n` points `start + k * step`, `k = 0 .. n - 1`. */
  function Evenly(start: real, step: real, n: nat): (r: seq<real>)
    ensures |r| == n
  {
    if n == 0 then [] else Evenly(start, step, n - 1) + [start + ((n - 1) as real) * step]
  }

  /** Point `i` is `start + i * step`, except that the last one is set to
      `stop` itself, as numpy does. */
  function Linspace(start: real, stop: real, num: nat): (r: seq<real>)
    ensures |r| == num
    ensures num >= 1 ==> r[0] == start
    ensures num >= 2 ==> r[num - 1] == stop
  {
    if num == 0 then []
    else if num == 1 then [start]
    else
      var r := Evenly(start, Step(start, stop, num), num - 1) + [stop];
      EvenlyPoint(start, Step(start, stop, num), num - 1, 0);
      r
  }

  lemma {:induction false} EvenlyPoint(start: real, step: real, n: nat, k: nat)
    requires k < n
    ensures Evenly(start, step, n)[k] == start + (k as real) * step
  {
    if k < n - 1 {
      EvenlyPoint(start, step, n - 1, k);
    }
  }

  /** Consecutive points are one step apart, the last one included. */
  lemma LinspaceSpacing(start: real, stop: real, num: nat, i: nat)
    requires i + 1 < num
    ensures Linspace(start, stop, num)[i + 1] - Linspace(start, stop, num)[i] == Step(start, stop, num)
  {
    var step := Step(start, stop, num);
    LinspacePoint(start, stop, num, i);
    LinspacePoint(start, stop, num, i + 1);
    assert ((i + 1) as real) * step == (i as real) * step + step;
  }

  /** Every point of a linspace from `a` to `a` is `a`. */
  lemma LinspaceFlat(a: real, num: nat)
    ensures forall i :: 0 <= i < num ==> Linspace(a, a, num)[i] == a
  {
    forall i | 0 <= i < num
      ensures Linspace(a, a, num)[i] == a
    {
      if num >= 2 {
        LinspacePoint(a, a, num, i);
        assert Step(a, a, num) == 0.0;
      }
    }
  }

  /** Point `i` as an affine function of `i`. */
  lemma LinspacePoint(start: real, stop: real, num: nat, i: nat)
    requires num >= 2 && i < num
    ensures Linspace(start, stop, num)[i] == start + (i as real) * Step(start, stop, num)
  {
    if i == num - 1 {
      assert ((num - 1) as real) * Step(start, stop, num) == stop - start;
    } else {
      EvenlyPoint(start, Step(start, stop, num), num - 1, i);
    }
  }

  /** The step has the sign of `stop - start`. */
  lemma StepSign(start: real, stop: real, num: nat)
    requires num >= 2
    ensures start <= stop ==> Step(start, stop, num) >= 0.0
    ensures stop <= start ==> Step(start, stop, num) <= 0.0
  {
    var k := (num - 1) as real;
    var step := Step(start, stop, num);
    assert step * k == stop - start;
    if step < 0.0 {
      MulLeftStrict(k, step, 0.0);
      assert k * step == step * k;
    }
    if step > 0.0 {
      MulLeftStrict(k, 0.0, step);
      assert k * step == step * k;
    }
  }

  /** Scaling by a non-negative step keeps order, by a non-positive one reverses it. */
  lemma ScaleOrder(step: real, a: real, b: real)
    requires a <= b
    ensures step >= 0.0 ==> a * step <= b * step
    ensures step <= 0.0 ==> b * step <= a * step
  {
    if step >= 0.0 {
      MulLeft(step, a, b);
      assert step * a == a * step && step * b == b * step;
    }
    if step <= 0.0 {
      MulLeft(-step, a, b);
      assert (-step) * a == -(a * step) && (-step) * b == -(b * step);
    }
  }

  /** Offsets `a <= b <= c` scaled by a step keep their order when the step
      is non-negative and reverse it when the step is non-positive. */
  lemma ScaledOffsets(step: real, a: real, b: real, c: real)
    requires 0.0 <= a <= b <= c
    ensures step >= 0.0 ==> 0.0 <= a * step <= b * step <= c * step
    ensures step <= 0.0 ==> c * step <= b * step <= a * step <= 0.0
  {
    ScaleOrder(step, 0.0, a);
    ScaleOrder(step, a, b);
    ScaleOrder(step, b, c);
    assert 0.0 * step == 0.0;
  }

  /** `num - 1` steps lead from `start` to `stop`. */
  lemma StepSpan(start: real, stop: real, num: nat)
    requires num >= 2
    ensures ((num - 1) as real) * Step(start, stop, num) == stop - start
  {
  }

  /** Points `start + i * step` and `start + j * step` for `i <= j <= k`,
      where `k` steps lead from `start` to `stop`, lie in order between the two. */
  lemma OffsetsBetween(start: real, stop: real, step: real, k: nat, i: nat, j: nat)
    requires i <= j <= k && (k as real) * step == stop - start
    ensures start <= stop ==> start <= start + (i as real) * step <= start + (j as real) * step <= stop
    ensures stop <= start ==> stop <= start + (j as real) * step <= start + (i as real) * step <= start
  {
    var kr := k as real;
    if step < 0.0 && k > 0 {
      MulLeftStrict(kr, step, 0.0);
      assert kr * 0.0 == 0.0;
    }
    if step > 0.0 && k > 0 {
      MulLeftStrict(kr, 0.0, step);
      assert kr * 0.0 == 0.0;
    }
    if k == 0 {
      assert (i as real) * step == 0.0 && (j as real) * step == 0.0;
    } else {
      ScaledOffsets(step, i as real, j as real, kr);
    }
  }

  /** The two points, named. */
  lemma OrderedPoints(start: real, stop: real, step: real, k: nat, i: nat, j: nat, ri: real, rj: real)
    requires i <= j <= k && (k as real) * step == stop - start
    requires ri == start + (i as real) * step && rj == start + (j as real) * step
    ensures start <= stop ==> start <= ri <= rj <= stop
    ensures stop <= start ==> stop <= rj <= ri <= start
  {
    OffsetsBetween(start, stop, step, k, i, j);
  }

  /** From `start` up to `stop` the points never decrease and stay between the endpoints. */
  lemma LinspaceRising(start: real, stop: real, num: nat, i: nat, j: nat)
    requires start <= stop
    requires i <= j < num
    ensures start <= Linspace(start, stop, num)[i] <= Linspace(start, stop, num)[j] <= stop
  {
    if num >= 2 {
      LinspaceOrdered(start, stop, num, i, j);
    } else {
      assert i == 0 && j == 0;
    }
  }

  /** From `start` down to `stop` the points never increase and stay between the endpoints. */
  lemma LinspaceFalling(start: real, stop: real, num: nat, i: nat, j: nat)
    requires stop <= start
    requires i <= j < num
    ensures stop <= Linspace(start, stop, num)[j] <= Linspace(start, stop, num)[i] <= start
  {
    if num >= 2 {
      LinspaceOrdered(start, stop, num, i, j);
    } else {
      assert i == 0 && j == 0;
    }
  }

  lemma LinspaceOrdered(start: real, stop: real, num: nat, i: nat, j: nat)
    requires num >= 2 && i <= j < num
    ensures start <= stop ==> start <= Linspace(start, stop, num)[i] <= Linspace(start, stop, num)[j] <= stop
    ensures stop <= start ==> stop <= Linspace(start, stop, num)[j] <= Linspace(start, stop, num)[i] <= start
  {
    var k: nat := num - 1;
    LinspacePoint(start, stop, num, i);
    LinspacePoint(start, stop, num, j);
    StepSpan(start, stop, num);
    OrderedPoints(start, stop, Step(start, stop, num), k, i, j,
      Linspace(start, stop, num)[i], Linspace(start, stop, num)[j]);
  }
}

=== FILE: prepayment_calcs.dfy ===
/** Prepayment rates (CPR, SMM, the PSA benchmark) and the CPR-curve
    mini-language that describes a prepayment curve as comma-separated
    segments such as `.2 ramp 6 for 30, 6`. */
module PrepaymentCalcs {
  import opened Wrappers
  import opened RealPow
  import opened PyStr
  import opened PyFloat
  import opened NumpyLinspace

  /** The number of monthly periods a curve is laid out against (`nperiods`). */
  const Horizon: int := 360

  // ---------------------------------------------------------------------
  // CPR and SMM

  /** Annual conditional prepayment rate from the single monthly mortality:
      the share of the balance prepaid over twelve months at `smm` a month. */
  function Cpr(smm: real): (c: real)
    ensures smm == 0.0 ==> c == 0.0
    ensures smm == 1.0 ==> c == 1.0
    ensures 0.0 <= smm <= 1.0 ==> 0.0 <= c <= 1.0
  {
    PowOne(12);
    PowSign(1.0 - smm, 12);
    CprAtMostOne(smm);
    1.0 - Pow(1.0 - smm, 12)
  }

  lemma CprAtMostOne(smm: real)
    ensures 0.0 <= smm <= 1.0 ==> Pow(1.0 - smm, 12) <= 1.0
  {
    if 0.0 < smm <= 1.0 {
      PowStrictlyIncreasing(1.0 - smm, 1.0, 12);
      PowOne(12);
    } else {
      PowOne(12);
    }
  }

  /** `s` is the single monthly mortality of the annual rate `c`: the real
      twelfth root `SMM(c) = 1 - (1 - c) ** (1/12)` is the `s <= 1` with
      `CPR(s) == c`. */
  predicate IsSmmOf(s: real, c: real) {
    s <= 1.0 && Cpr(s) == c
  }

  /** Below 1 a larger monthly mortality gives a larger annual rate. */
  lemma CprStrictlyIncreasing(a: real, b: real)
    requires a < b <= 1.0
    ensures Cpr(a) < Cpr(b)
  {
    PowStrictlyIncreasing(1.0 - b, 1.0 - a, 12);
  }

  /** An annual rate has at most one monthly mortality. */
  lemma SmmUnique(s: real, t: real, c: real)
    requires IsSmmOf(s, c) && IsSmmOf(t, c)
    ensures s == t
  {
    if s < t {
      CprStrictlyIncreasing(s, t);
    } else if t < s {
      CprStrictlyIncreasing(t, s);
    }
  }

  /** Whatever function `smmOf` computes the twelfth root, `SMM(CPR(s)) == s`
      for every monthly mortality `s <= 1`. */
  lemma SmmOfCpr(smmOf: real -> real, s: real)
    requires s <= 1.0
    requires IsSmmOf(smmOf(Cpr(s)), Cpr(s))
    ensures smmOf(Cpr(s)) == s
  {
    SmmUnique(smmOf(Cpr(s)), s, Cpr(s));
  }

  // ---------------------------------------------------------------------
  // PSA benchmark

  /** The PSA benchmark as the code computes it: `0.002 * month` up to
      month 30, then the constant `6`.  It agrees with the benchmark on the
      ramp and is a hundred times it on the plateau. */
  function PsaAsWritten(month: int): (r: real)
    ensures month <= 30 ==> r == Psa(month)
    ensures month > 30 ==> r == 100.0 * Psa(month)
  {
    if month <= 30 then (month as real) * 0.002 else 6.0
  }

  /** The two branches use different units: the ramp is a fraction (0.06 at
      month 30) and the plateau a percentage, so the curve jumps a
      hundredfold between months 30 and 31, to a rate above 100%. */
  lemma PsaAsWrittenJumps()
    ensures PsaAsWritten(30) == 0.06
    ensures PsaAsWritten(31) == 100.0 * PsaAsWritten(30)
    ensures PsaAsWritten(31) > 1.0
  {
  }

  /** The 100% PSA benchmark as a fraction: 0.2% a month of age, rising to
      and then holding at 6% from month 30 on. */
  function Psa(month: int): (r: real)
    ensures r <= 0.06
    ensures month >= 0 ==> 0.0 <= r
    ensures r == 0.06 <==> month >= 30
  {
    if month <= 30 then (month as real) * 0.002 else 0.06
  }

  /** The corrected benchmark never decreases and stays within 0..6% for
      ages from 0. */
  lemma PsaMonotone(m: int, n: int)
    requires m <= n
    ensures Psa(m) <= Psa(n)
  {
  }

  lemma PsaBounds(m: int)
    requires m >= 0
    ensures 0.0 <= Psa(m) <= 0.06
  {
  }

  // ---------------------------------------------------------------------
  // The curve mini-language

  /** The CPR a segment starts at and the CPR it ends at, as fractions. */
  datatype Shape = Flat(level: real) | Ramp(from: real, to: real)
  {
    function Start(): real {
      match this
      case Flat(level) => level
      case Ramp(from, _) => from
    }

    function End(): real {
      match this
      case Flat(level) => level
      case Ramp(_, to) => to
    }
  }

  /** One comma-separated part of a description: its shape and the length
      given by `for`, if any. */
  datatype Segment = Segment(shape: Shape, length: Option<real>)

  datatype CurveError =
    | NotNumeric(word: string)        // `float(word)` raises ValueError
    | MissingOperand(keyword: string) // `ramp` or `for` ends its segment: IndexError
    | FractionalLength(given: real)   // a `for` length that is not a whole number
    | NegativeLength(samples: int)    // linspace refuses a negative number of samples

  /** The words of a segment: stripped, then split on single spaces. */
  function Words(text: string): (words: seq<string>)
    ensures |words| >= 1
  {
    Split(Strip(text), ' ')
  }

  /** A word of a segment together with `float(word)`, or `None` where that
      raises. */
  datatype Word = Word(text: string, number: Option<real>)

  /** The words of a segment, each read as a number where it is one. */
  function Tokens(text: string): (ws: seq<Word>)
    ensures |ws| == |Words(text)|
  {
    var words := Words(text);
    seq(|words|, j requires 0 <= j < |words| => Word(words[j], ParseFloat(words[j])))
  }

  /** Token `j` is word `j` with what `float()` makes of it. */
  lemma TokenAt(text: string, j: nat)
    requires j < |Words(text)|
    ensures Tokens(text)[j] == Word(Words(text)[j], ParseFloat(Words(text)[j]))
  {
  }

  /** `ramp` and `for`, the two words that take an operand. */
  predicate IsKeyword(w: Word) {
    KeywordText(w.text)
  }

  predicate KeywordText(text: string) {
    text == "ramp" || text == "for"
  }

  /** Reads the words from position `i` on.  Every position is visited;
      `ramp` and `for` read the next word as their operand, `ramp`'s in
      percent. */
  function Scan(ws: seq<Word>, i: nat, seg: Segment): (r: Result<Segment, CurveError>)
    requires 1 <= i <= |ws|
    ensures r.Success? ==> r.value.shape.Start() == seg.shape.Start()
    ensures r.Failure? ==> r.error.NotNumeric? || r.error.MissingOperand?
    decreases |ws| - i
  {
    if i == |ws| then Success(seg)
    else if ws[i].text == "ramp" then
      if i + 1 == |ws| then Failure(MissingOperand("ramp"))
      else match ws[i + 1].number
        case None => Failure(NotNumeric(ws[i + 1].text))
        case Some(x) => Scan(ws, i + 1, seg.(shape := Ramp(seg.shape.Start(), x / 100.0)))
    else if ws[i].text == "for" then
      if i + 1 == |ws| then Failure(MissingOperand("for"))
      else match ws[i + 1].number
        case None => Failure(NotNumeric(ws[i + 1].text))
        case Some(x) => Scan(ws, i + 1, seg.(length := Some(x)))
    else Scan(ws, i + 1, seg)
  }

  /** Word 0 is the starting CPR in percent, which is also the ending CPR
      unless a `ramp` says otherwise. */
  function ReadSegment(ws: seq<Word>): (r: Result<Segment, CurveError>)
    requires |ws| >= 1
    ensures r.Success? ==> ws[0].number == Some(r.value.shape.Start() * 100.0)
    ensures ws[0].number.None? ==> r == Failure(NotNumeric(ws[0].text))
    ensures r.Failure? ==> r.error.NotNumeric? || r.error.MissingOperand?
  {
    match ws[0].number
    case None => Failure(NotNumeric(ws[0].text))
    case Some(x) => Scan(ws, 1, Segment(Flat(x / 100.0), None))
  }

  /** Parses one comma-separated segment.  Reading the words fails only on
      a word that is not a number or on a keyword with no operand. */
  function ParseSegment(text: string): (r: Result<Segment, CurveError>)
    ensures r.Failure? ==> r.error.NotNumeric? || r.error.MissingOperand?
  {
    ReadSegment(Tokens(text))
  }

  /** A first word that is not a number is the error; a parsed segment
      starts at that word read as a percentage. */
  lemma ParseSegmentStart(text: string)
    ensures Tokens(text)[0].number.None? ==> ParseSegment(text) == Failure(NotNumeric(Tokens(text)[0].text))
    ensures ParseSegment(text).Success? ==>
      ParseSegment(text).value.shape.Start() * 100.0 == Tokens(text)[0].number.value
  {
  }

  /** `float("ramp")` and `float("for")` raise. */
  lemma KeywordsAreNotNumbers()
    ensures ParseFloat("ramp") == None && ParseFloat("for") == None
  {
    assert !HasDigit("ramp") && !HasDigit("for");
  }

  /** A word that reads as a number is not a keyword. */
  lemma NumberNotKeyword(w: string)
    requires ParseFloat(w).Some?
    ensures !KeywordText(w)
  {
    KeywordsAreNotNumbers();
  }

  /** A segment of two or more words that reads never ends in a keyword. */
  lemma SegmentEnds(ws: seq<Word>)
    requires |ws| >= 2
    ensures ReadSegment(ws).Success? ==> !IsKeyword(ws[|ws| - 1])
  {
    if IsKeyword(ws[|ws| - 1]) {
      DanglingKeyword(ws);
    }
  }

  /** A segment whose word 0 has no digit, such as `ramp 6`, is not a
      number and fails to parse with that word. */
  lemma StartNotNumeric(text: string)
    requires !HasDigit(Words(text)[0])
    ensures ParseSegment(text) == Failure(NotNumeric(Words(text)[0]))
  {
    TokenAt(text, 0);
  }

  /** With no `ramp` from position `i` on, the shape is left as it is. */
  lemma {:induction false} ScanNoRamp(ws: seq<Word>, i: nat, seg: Segment)
    requires 1 <= i <= |ws|
    requires forall j :: i <= j < |ws| ==> ws[j].text != "ramp"
    ensures Scan(ws, i, seg).Success? ==> Scan(ws, i, seg).value.shape == seg.shape
    decreases |ws| - i
  {
    if i < |ws| {
      if ws[i].text == "for" && i + 1 < |ws| && ws[i + 1].number.Some? {
        ScanNoRamp(ws, i + 1, seg.(length := ws[i + 1].number));
      } else if ws[i].text != "for" {
        ScanNoRamp(ws, i + 1, seg);
      }
    }
  }

  /** The last `ramp`, at position `j`, decides the ending CPR: its operand
      in percent. */
  lemma {:induction false} ScanLastRamp(ws: seq<Word>, i: nat, seg: Segment, j: nat)
    requires 1 <= i <= j < |ws| && ws[j].text == "ramp"
    requires forall m :: j < m < |ws| ==> ws[m].text != "ramp"
    ensures Scan(ws, i, seg).Success? ==>
      j + 1 < |ws| && ws[j + 1].number.Some? &&
      Scan(ws, i, seg).value.shape == Ramp(seg.shape.Start(), ws[j + 1].number.value / 100.0)
    decreases |ws| - i
  {
    if ws[i].text == "ramp" && i + 1 < |ws| && ws[i + 1].number.Some? {
      var next := seg.(shape := Ramp(seg.shape.Start(), ws[i + 1].number.value / 100.0));
      if i < j {
        ScanLastRamp(ws, i + 1, next, j);
      } else {
        ScanNoRamp(ws, i + 1, next);
      }
    } else if ws[i].text == "for" && i + 1 < |ws| && ws[i + 1].number.Some? {
      ScanLastRamp(ws, i + 1, seg.(length := ws[i + 1].number), j);
    } else if !IsKeyword(ws[i]) {
      ScanLastRamp(ws, i + 1, seg, j);
    }
  }

  /** With no `for` from position `i` on, the length is left as it is. */
  lemma {:induction false} ScanNoFor(ws: seq<Word>, i: nat, seg: Segment)
    requires 1 <= i <= |ws|
    requires forall j :: i <= j < |ws| ==> ws[j].text != "for"
    ensures Scan(ws, i, seg).Success? ==> Scan(ws, i, seg).value.length == seg.length
    decreases |ws| - i
  {
    if i < |ws| {
      if ws[i].text == "ramp" && i + 1 < |ws| && ws[i + 1].number.Some? {
        ScanNoFor(ws, i + 1, seg.(shape := Ramp(seg.shape.Start(), ws[i + 1].number.value / 100.0)));
      } else if ws[i].text != "ramp" {
        ScanNoFor(ws, i + 1, seg);
      }
    }
  }

  /** The last `for`, at position `j`, decides the length: its operand. */
  lemma {:induction false} ScanLastFor(ws: seq<Word>, i: nat, seg: Segment, j: nat)
    requires 1 <= i <= j < |ws| && ws[j].text == "for"
    requires forall m :: j < m < |ws| ==> ws[m].text != "for"
    ensures Scan(ws, i, seg).Success? ==>
      j + 1 < |ws| && ws[j + 1].number.Some? &&
      Scan(ws, i, seg).value.length == ws[j + 1].number
    decreases |ws| - i
  {
    if ws[i].text == "for" && i + 1 < |ws| && ws[i + 1].number.Some? {
      var next := seg.(length := ws[i + 1].number);
      if i < j {
        ScanLastFor(ws, i + 1, next, j);
      } else {
        ScanNoFor(ws, i + 1, next);
      }
    } else if ws[i].text == "ramp" && i + 1 < |ws| && ws[i + 1].number.Some? {
      ScanLastFor(ws, i + 1, seg.(shape := Ramp(seg.shape.Start(), ws[i + 1].number.value / 100.0)), j);
    } else if !IsKeyword(ws[i]) {
      ScanLastFor(ws, i + 1, seg, j);
    }
  }

  /** A segment whose last word is `ramp` or `for` never parses: reading the
      operand runs off the end of the words. */
  lemma {:induction false} ScanDangling(ws: seq<Word>, i: nat, seg: Segment)
    requires 1 <= i < |ws| && IsKeyword(ws[|ws| - 1])
    ensures Scan(ws, i, seg).Failure?
    decreases |ws| - i
  {
    if i + 1 < |ws| {
      if ws[i].text == "ramp" && ws[i + 1].number.Some? {
        ScanDangling(ws, i + 1, seg.(shape := Ramp(seg.shape.Start(), ws[i + 1].number.value / 100.0)));
      } else if ws[i].text == "for" && ws[i + 1].number.Some? {
        ScanDangling(ws, i + 1, seg.(length := ws[i + 1].number));
      } else if !IsKeyword(ws[i]) {
        ScanDangling(ws, i + 1, seg);
      }
    }
  }

  /** Two word lists read alike: the same word 0, keywords at the same
      positions, and the same keyword and operand there.  Every other word
      may differ. */
  predicate ReadAlike(w: seq<Word>, v: seq<Word>) {
    |w| == |v| && |w| >= 1 && w[0] == v[0] &&
    forall j :: 1 <= j < |w| ==>
      (IsKeyword(w[j]) <==> IsKeyword(v[j])) &&
      (IsKeyword(w[j]) ==> w[j] == v[j] && (j + 1 < |w| ==> w[j + 1] == v[j + 1]))
  }

  /** Words other than word 0, the keywords and their operands are ignored. */
  lemma {:induction false} ScanIgnores(w: seq<Word>, v: seq<Word>, i: nat, seg: Segment)
    requires ReadAlike(w, v) && 1 <= i <= |w|
    ensures Scan(w, i, seg) == Scan(v, i, seg)
    decreases |w| - i
  {
    if i < |w| {
      if w[i].text == "ramp" && i + 1 < |w| && w[i + 1].number.Some? {
        ScanIgnores(w, v, i + 1, seg.(shape := Ramp(seg.shape.Start(), w[i + 1].number.value / 100.0)));
      } else if w[i].text == "for" && i + 1 < |w| && w[i + 1].number.Some? {
        ScanIgnores(w, v, i + 1, seg.(length := w[i + 1].number));
      } else if !IsKeyword(w[i]) {
        ScanIgnores(w, v, i + 1, seg);
      }
    }
  }

  /** The words from position `i` on read exactly when every `ramp` and
      `for` among them is followed by a number. */
  lemma {:induction false} ScanDefined(ws: seq<Word>, i: nat, seg: Segment)
    requires 1 <= i <= |ws|
    ensures Scan(ws, i, seg).Success? <==>
      forall j :: i <= j < |ws| && IsKeyword(ws[j]) ==> j + 1 < |ws| && ws[j + 1].number.Some?
    decreases |ws| - i
  {
    if i < |ws| {
      if ws[i].text == "ramp" && i + 1 < |ws| && ws[i + 1].number.Some? {
        ScanDefined(ws, i + 1, seg.(shape := Ramp(seg.shape.Start(), ws[i + 1].number.value / 100.0)));
      } else if ws[i].text == "for" && i + 1 < |ws| && ws[i + 1].number.Some? {
        ScanDefined(ws, i + 1, seg.(length := ws[i + 1].number));
      } else if !IsKeyword(ws[i]) {
        ScanDefined(ws, i + 1, seg);
      }
    }
  }

  /** The first `ramp` or `for` from position `i` on that is not followed
      by a number is the error: `IndexError` when it is the last word,
      otherwise the `ValueError` of `float()` on the word after it. */
  lemma {:induction false} ScanFailsAt(ws: seq<Word>, i: nat, seg: Segment, j: nat)
    requires 1 <= i <= j < |ws| && IsKeyword(ws[j])
    requires !(j + 1 < |ws| && ws[j + 1].number.Some?)
    requires forall m :: i <= m < j && IsKeyword(ws[m]) ==> m + 1 < |ws| && ws[m + 1].number.Some?
    ensures Scan(ws, i, seg) ==
      if j + 1 == |ws| then Failure(MissingOperand(ws[j].text)) else Failure(NotNumeric(ws[j + 1].text))
    decreases j - i
  {
    if i < j {
      if ws[i].text == "ramp" {
        ScanFailsAt(ws, i + 1, seg.(shape := Ramp(seg.shape.Start(), ws[i + 1].number.value / 100.0)), j);
      } else if ws[i].text == "for" {
        ScanFailsAt(ws, i + 1, seg.(length := ws[i + 1].number), j);
      } else {
        ScanFailsAt(ws, i + 1, seg, j);
      }
    }
  }

  /** A segment reads exactly when word 0 is a number and every `ramp` and
      `for` is followed by a number. */
  lemma ReadSegmentDefined(ws: seq<Word>)
    requires |ws| >= 1
    ensures ReadSegment(ws).Success? <==>
      ws[0].number.Some? &&
      forall j :: 1 <= j < |ws| && IsKeyword(ws[j]) ==> j + 1 < |ws| && ws[j + 1].number.Some?
  {
    if ws[0].number.Some? {
      ScanDefined(ws, 1, Segment(Flat(ws[0].number.value / 100.0), None));
    }
  }

  /** After a numeric word 0, a segment fails on its first `ramp` or `for`
      without a number after it, as `ScanFailsAt` describes. */
  lemma ReadSegmentFailsAt(ws: seq<Word>, j: nat)
    requires 1 <= j < |ws| && ws[0].number.Some? && IsKeyword(ws[j])
    requires !(j + 1 < |ws| && ws[j + 1].number.Some?)
    requires forall m :: 1 <= m < j && IsKeyword(ws[m]) ==> m + 1 < |ws| && ws[m + 1].number.Some?
    ensures ReadSegment(ws) ==
      if j + 1 == |ws| then Failure(MissingOperand(ws[j].text)) else Failure(NotNumeric(ws[j + 1].text))
  {
    ScanFailsAt(ws, 1, Segment(Flat(ws[0].number.value / 100.0), None), j);
  }

  /** A segment parses exactly when `float()` reads its first word and the
      word after every `ramp` and `for`. */
  lemma ParseSegmentDefined(text: string)
    ensures var words := Words(text);
      ParseSegment(text).Success? <==>
        ParseFloat(words[0]).Some? &&
        forall j :: 1 <= j < |words| && KeywordText(words[j]) ==> j + 1 < |words| && ParseFloat(words[j + 1]).Some?
  {
    TokensAll(text);
    ReadDefinedFromWords(Tokens(text), Words(text));
  }

  /** Every token pairs its word with `float()` of it. */
  lemma TokensAll(text: string)
    ensures forall j :: 0 <= j < |Tokens(text)| ==>
      Tokens(text)[j] == Word(Words(text)[j], ParseFloat(Words(text)[j]))
  {
    forall j | 0 <= j < |Tokens(text)|
      ensures Tokens(text)[j] == Word(Words(text)[j], ParseFloat(Words(text)[j]))
    {
      TokenAt(text, j);
    }
  }

  /** `ReadSegmentDefined` for tokens read off `words`. */
  lemma ReadDefinedFromWords(ws: seq<Word>, words: seq<string>)
    requires |ws| == |words| >= 1
    requires forall j :: 0 <= j < |ws| ==> ws[j] == Word(words[j], ParseFloat(words[j]))
    ensures ReadSegment(ws).Success? <==>
      ParseFloat(words[0]).Some? &&
      forall j :: 1 <= j < |words| && KeywordText(words[j]) ==> j + 1 < |words| && ParseFloat(words[j + 1]).Some?
  {
    ReadSegmentDefined(ws);
    OperandsRead(ws, words);
  }

  /** The condition of `ReadSegmentDefined` read off the words themselves. */
  lemma OperandsRead(ws: seq<Word>, words: seq<string>)
    requires |ws| == |words| >= 1
    requires forall j :: 0 <= j < |ws| ==> ws[j] == Word(words[j], ParseFloat(words[j]))
    ensures (ws[0].number.Some? &&
        forall j :: 1 <= j < |ws| && IsKeyword(ws[j]) ==> j + 1 < |ws| && ws[j + 1].number.Some?)
      <==>
      (ParseFloat(words[0]).Some? &&
        forall j :: 1 <= j < |words| && KeywordText(words[j]) ==> j + 1 < |words| && ParseFloat(words[j + 1]).Some?)
  {
    forall j | 0 <= j < |ws|
      ensures ws[j].number.Some? == ParseFloat(words[j]).Some? && IsKeyword(ws[j]) == KeywordText(words[j])
    {
      assert ws[j] == Word(words[j], ParseFloat(words[j]));
    }
  }

  /** A segment without `ramp` is flat at word 0 read as a percentage. */
  lemma FlatSegment(ws: seq<Word>)
    requires |ws| >= 1 && ReadSegment(ws).Success?
    requires forall j :: 1 <= j < |ws| ==> ws[j].text != "ramp"
    ensures ReadSegment(ws).value.shape == Flat(ws[0].number.value / 100.0)
  {
    ScanNoRamp(ws, 1, Segment(Flat(ws[0].number.value / 100.0), None));
  }

  /** A segment whose last `ramp` is word `j` ramps from word 0 to word
      `j + 1`, both read as percentages. */
  lemma RampSegment(ws: seq<Word>, j: nat)
    requires |ws| >= 1 && ReadSegment(ws).Success?
    requires 1 <= j < |ws| && ws[j].text == "ramp"
    requires forall m :: j < m < |ws| ==> ws[m].text != "ramp"
    ensures j + 1 < |ws| && ws[j + 1].number.Some?
    ensures ReadSegment(ws).value.shape == Ramp(ws[0].number.value / 100.0, ws[j + 1].number.value / 100.0)
  {
    ScanLastRamp(ws, 1, Segment(Flat(ws[0].number.value / 100.0), None), j);
  }

  /** A segment without `for` leaves its length to the layout. */
  lemma OpenSegment(ws: seq<Word>)
    requires |ws| >= 1 && ReadSegment(ws).Success?
    requires forall j :: 1 <= j < |ws| ==> ws[j].text != "for"
    ensures ReadSegment(ws).value.length == None
  {
    ScanNoFor(ws, 1, Segment(Flat(ws[0].number.value / 100.0), None));
  }

  /** A segment whose last `for` is word `j` asks for `float(words[j + 1])`
      values. */
  lemma ForSegment(ws: seq<Word>, j: nat)
    requires |ws| >= 1 && ReadSegment(ws).Success?
    requires 1 <= j < |ws| && ws[j].text == "for"
    requires forall m :: j < m < |ws| ==> ws[m].text != "for"
    ensures j + 1 < |ws| && ws[j + 1].number.Some?
    ensures ReadSegment(ws).value.length == ws[j + 1].number
  {
    ScanLastFor(ws, 1, Segment(Flat(ws[0].number.value / 100.0), None), j);
  }

  /** `ramp` or `for` as the last of two or more words is an error. */
  lemma DanglingKeyword(ws: seq<Word>)
    requires |ws| >= 2 && IsKeyword(ws[|ws| - 1])
    ensures ReadSegment(ws).Failure?
  {
    if ws[0].number.Some? {
      ScanDangling(ws, 1, Segment(Flat(ws[0].number.value / 100.0), None));
    }
  }

  /** Segments whose words read alike parse alike. */
  lemma SegmentIgnores(ws: seq<Word>, other: seq<Word>)
    requires ReadAlike(ws, other)
    ensures ReadSegment(ws) == ReadSegment(other)
  {
    if ws[0].number.Some? {
      ScanIgnores(ws, other, 1, Segment(Flat(ws[0].number.value / 100.0), None));
    }
  }

  /** The number of values a segment starting at `period` produces, as
      `np.linspace` takes it: the `for` operand, or else the periods left to
      the horizon, `360 - current_period`, when that is a whole number no
      less than zero. */
  function Count(seg: Segment, period: int): (r: Result<nat, CurveError>)
    ensures seg.length.Some? ==> var x := seg.length.value;
      (r.Success? <==> 0.0 <= x && x.Floor as real == x) &&
      (r.Success? ==> r.value as real == x) &&
      (x.Floor as real != x ==> r == Failure(FractionalLength(x))) &&
      (x < 0.0 && x.Floor as real == x ==> r == Failure(NegativeLength(x.Floor)))
    ensures seg.length.None? ==>
      (r.Success? <==> period <= Horizon) &&
      (r.Success? ==> r.value == Horizon - period) &&
      (period > Horizon ==> r == Failure(NegativeLength(Horizon - period)))
  {
    var d := match seg.length
      case Some(n) => n
      case None => (Horizon - period) as real;
    if d.Floor as real != d then Failure(FractionalLength(d))
    else if d < 0.0 then Failure(NegativeLength(d.Floor))
    else Success(d.Floor as nat)
  }

  /** The values laid out so far and `current_period`, the period the next
      segment starts at. */
  datatype CurveState = CurveState(values: seq<real>, period: int)

  /** Appends the linspace of a parsed segment; the next segment starts on
      the period this one ends at. */
  function Place(seg: Segment, st: CurveState): (r: Result<CurveState, CurveError>)
    ensures r.Success? <==> Count(seg, st.period).Success?
    ensures r.Success? ==> st.values <= r.value.values
    ensures r.Success? ==> r.value.period - st.period + 1 == Count(seg, st.period).value
    ensures r.Success? ==> |r.value.values| - |st.values| == r.value.period - st.period + 1
    ensures r.Success? && |r.value.values| > |st.values| ==> r.value.values[|st.values|] == seg.shape.Start()
    ensures r.Success? && |r.value.values| >= |st.values| + 2 ==> r.value.values[|r.value.values| - 1] == seg.shape.End()
  {
    var n :- Count(seg, st.period);
    Success(CurveState(st.values + Linspace(seg.shape.Start(), seg.shape.End(), n), st.period + n - 1))
  }

  /** Lays out the segments in order, stopping at the first one that does
      not parse or cannot be placed. */
  function Layout(parsed: seq<Result<Segment, CurveError>>, st: CurveState): (r: Result<CurveState, CurveError>)
    ensures r.Success? ==> forall k :: 0 <= k < |parsed| ==> parsed[k].Success?
    ensures r.Failure? ==>
      (exists k :: 0 <= k < |parsed| && parsed[k] == Failure(r.error)) ||
      r.error.FractionalLength? || r.error.NegativeLength?
    decreases |parsed|
  {
    if parsed == [] then Success(st)
    else
      var seg :- parsed[0];
      var next :- Place(seg, st);
      Layout(parsed[1..], next)
  }

  /** The segments of a description, one per comma. */
  function Segments(description: string): (texts: seq<string>)
    ensures |texts| == multiset(description)[','] + 1
  {
    Split(description, ',')
  }

  /** Every segment of a description, parsed on its own. */
  function ParseAll(texts: seq<string>): (parsed: seq<Result<Segment, CurveError>>)
    ensures |parsed| == |texts|
  {
    seq(|texts|, k requires 0 <= k < |texts| => ParseSegment(texts[k]))
  }

  /** Entry `k` of `ParseAll` is segment `k` parsed. */
  lemma ParsedAt(texts: seq<string>, k: nat)
    requires k < |texts|
    ensures ParseAll(texts)[k] == ParseSegment(texts[k])
  {
  }

  /** The CPR curve a description denotes: one linspace per comma-separated
      segment, laid out from period 1. */
  function CprCurve(description: string): (r: Result<seq<real>, CurveError>)
    ensures r.Success? ==>
      forall k :: 0 <= k < |Segments(description)| ==> ParseAll(Segments(description))[k].Success?
    ensures r.Failure? ==>
      (exists k :: 0 <= k < |Segments(description)| && ParseAll(Segments(description))[k] == Failure(r.error)) ||
      r.error.FractionalLength? || r.error.NegativeLength?
  {
    var st :- Layout(ParseAll(Segments(description)), CurveState([], 1));
    Success(st.values)
  }

  /** A description builds a curve exactly when each of its segments parses
      and has a whole, non-negative length at the period the segments before
      it reach. */
  lemma CurveDefined(description: string)
    ensures CprCurve(description).Success? <==>
      forall k :: 0 <= k < |Segments(description)| ==> Placeable(ParseAll(Segments(description)), CurveState([], 1), k)
  {
    LayoutDefined(ParseAll(Segments(description)), CurveState([], 1));
  }

  /** Every segment of a description that yields a curve parses. */
  lemma CurveSegmentsParse(description: string, k: nat)
    requires CprCurve(description).Success?
    requires k < |Segments(description)|
    ensures ParseSegment(Segments(description)[k]).Success?
  {
    ParsedAt(Segments(description), k);
  }

  // ---------------------------------------------------------------------
  // Layout: shared edges and the length of a curve

  /** Laying out a list of segments is laying out a prefix and then the rest. */
  lemma {:induction false} LayoutPrefix(parsed: seq<Result<Segment, CurveError>>, st: CurveState, k: nat)
    requires k <= |parsed|
    requires Layout(parsed, st).Success?
    ensures Layout(parsed[..k], st).Success?
    ensures Layout(parsed[k..], Layout(parsed[..k], st).value) == Layout(parsed, st)
    decreases |parsed|
  {
    if k > 0 {
      var next := Place(parsed[0].value, st).value;
      LayoutPrefix(parsed[1..], next, k - 1);
      assert parsed[..k][1..] == parsed[1..][..k - 1];
      assert parsed[1..][k - 1..] == parsed[k..];
    } else {
      assert parsed[..0] == [];
      assert parsed[0..] == parsed;
    }
  }

  /** Appending one segment lays out the others first. */
  lemma {:induction false} LayoutAppend(parsed: seq<Result<Segment, CurveError>>, last: Result<Segment, CurveError>, st: CurveState)
    ensures Layout(parsed + [last], st) ==
      match Layout(parsed, st)
      case Failure(e) => Failure(e)
      case Success(s) => Layout([last], s)
    decreases |parsed|
  {
    if parsed == [] {
      assert [] + [last] == [last];
    } else {
      assert (parsed + [last])[1..] == parsed[1..] + [last];
      if parsed[0].Success? && Place(parsed[0].value, st).Success? {
        LayoutAppend(parsed[1..], last, Place(parsed[0].value, st).value);
      }
    }
  }

  /** Segment `k` can be placed after the ones before it: when those lay
      out, it parses and its length is a whole number no less than zero at
      the period they reach. */
  predicate Placeable(parsed: seq<Result<Segment, CurveError>>, st: CurveState, k: nat)
    requires k < |parsed|
  {
    Layout(parsed[..k], st).Success? ==>
      parsed[k].Success? && Count(parsed[k].value, Layout(parsed[..k], st).value.period).Success?
  }

  /** A list of segments lays out exactly when each of them can be placed
      after the ones before it. */
  lemma {:induction false} LayoutDefined(parsed: seq<Result<Segment, CurveError>>, st: CurveState)
    ensures Layout(parsed, st).Success? <==> forall k :: 0 <= k < |parsed| ==> Placeable(parsed, st, k)
    decreases |parsed|
  {
    if parsed != [] {
      assert parsed[..0] == [];
      if parsed[0].Success? && Place(parsed[0].value, st).Success? {
        var next := Place(parsed[0].value, st).value;
        var rest := parsed[1..];
        LayoutDefined(rest, next);
        forall k | 1 <= k < |parsed|
          ensures Placeable(parsed, st, k) == Placeable(rest, next, k - 1)
        {
          assert parsed[..k][1..] == rest[..k - 1];
          assert rest[k - 1] == parsed[k];
        }
        if forall k :: 0 <= k < |rest| ==> Placeable(rest, next, k) {
          forall k | 0 <= k < |parsed|
            ensures Placeable(parsed, st, k)
          {
            if k > 0 {
              assert Placeable(rest, next, k - 1);
            }
          }
        } else {
          var j :| 0 <= j < |rest| && !Placeable(rest, next, j);
          assert !Placeable(parsed, st, j + 1);
        }
      } else {
        assert !Placeable(parsed, st, 0);
      }
    }
  }

  /** Each segment of `n` values advances `current_period` by `n - 1`, so
      every segment adds one to `len(values) - current_period`, and what was
      laid out before is kept as a prefix. */
  lemma {:induction false} LayoutShift(parsed: seq<Result<Segment, CurveError>>, st: CurveState)
    requires Layout(parsed, st).Success?
    ensures |Layout(parsed, st).value.values| - Layout(parsed, st).value.period == |st.values| - st.period + |parsed|
    ensures st.values <= Layout(parsed, st).value.values
    decreases |parsed|
  {
    if parsed != [] {
      LayoutShift(parsed[1..], Place(parsed[0].value, st).value);
    }
  }

  /** The layout of the first `k + 1` segments places segment `k` after the
      first `k`. */
  lemma PrefixStep(parsed: seq<Result<Segment, CurveError>>, init: CurveState, k: nat)
    requires k < |parsed|
    requires Layout(parsed[..k + 1], init).Success?
    ensures Layout(parsed[..k], init).Success? && parsed[k].Success?
    ensures Place(parsed[k].value, Layout(parsed[..k], init).value) == Layout(parsed[..k + 1], init)
  {
    assert parsed[..k + 1] == parsed[..k] + [parsed[k]];
    LayoutAppend(parsed[..k], parsed[k], init);
    assert [parsed[k]][1..] == [];
  }

  /** Segment `k` of a layout from `init` starts at index
      `|init.values| - init.period + p + k`, where `p` is the period it
      starts on. */
  lemma {:induction false} StartIndex(parsed: seq<Result<Segment, CurveError>>, init: CurveState, k: nat)
    requires k <= |parsed|
    requires Layout(parsed[..k], init).Success?
    ensures |Layout(parsed[..k], init).value.values| == |init.values| - init.period + Layout(parsed[..k], init).value.period + k
  {
    LayoutShift(parsed[..k], init);
  }

  /** What a later layout keeps of an earlier one. */
  lemma KeepsPrefix(parsed: seq<Result<Segment, CurveError>>, init: CurveState, k: nat)
    requires k <= |parsed|
    requires Layout(parsed, init).Success?
    ensures Layout(parsed[..k], init).Success?
    ensures Layout(parsed[..k], init).value.values <= Layout(parsed, init).value.values
  {
    LayoutPrefix(parsed, init, k);
    LayoutShift(parsed[k..], Layout(parsed[..k], init).value);
  }

  /** Placing a segment appends its `linspace` run and moves
      `current_period` to the run's last period. */
  lemma PlaceAppends(seg: Segment, st: CurveState)
    requires Place(seg, st).Success?
    ensures Count(seg, st.period).Success?
    ensures var n := Count(seg, st.period).value;
      Place(seg, st).value.period == st.period + n - 1 &&
      Place(seg, st).value.values[|st.values|..] == Linspace(seg.shape.Start(), seg.shape.End(), n)
  {
  }

  /** A run at the end of a prefix sits at the same place in the whole. */
  lemma RunInPrefix(prefix: seq<real>, whole: seq<real>, i: nat, n: nat)
    requires prefix <= whole && i + n == |prefix|
    ensures whole[i .. i + n] == prefix[i..]
  {
  }

  /** Where segment `k` of a successful layout from `init` lands. */
  lemma PlacementOf(parsed: seq<Result<Segment, CurveError>>, init: CurveState, k: nat)
    requires Layout(parsed, init).Success?
    requires k < |parsed|
    ensures Layout(parsed[..k], init).Success? && Layout(parsed[..k + 1], init).Success?
    ensures parsed[k].Success?
    ensures var p := Layout(parsed[..k], init).value.period;
      var seg := parsed[k].value;
      var curve := Layout(parsed, init).value.values;
      var at := |init.values| - init.period + p + k;
      Count(seg, p).Success? &&
      var n := Count(seg, p).value;
      Layout(parsed[..k + 1], init).value.period == p + n - 1 &&
      0 <= at && at + n <= |curve| &&
      curve[at .. at + n] == Linspace(seg.shape.Start(), seg.shape.End(), n)
  {
    KeepsPrefix(parsed, init, k + 1);
    PrefixStep(parsed, init, k);
    StartIndex(parsed, init, k);
    var b := Layout(parsed[..k], init).value;
    var a := Layout(parsed[..k + 1], init).value;
    var seg := parsed[k].value;
    PlaceAppends(seg, b);
    var n := Count(seg, b.period).value;
    RunInPrefix(a.values, Layout(parsed, init).value.values, |b.values|, n);
  }

  /** A segment with no `for` runs to `current_period` 359. */
  lemma PlaceOpenEnd(seg: Segment, st: CurveState)
    requires Place(seg, st).Success? && seg.length.None?
    ensures Place(seg, st).value.period == Horizon - 1
  {
  }

  /** A layout whose last segment has no `for` ends on `current_period`
      359. */
  lemma OpenEndPeriod(parsed: seq<Result<Segment, CurveError>>, init: CurveState)
    requires Layout(parsed, init).Success?
    requires parsed != [] && parsed[|parsed| - 1].Success? && parsed[|parsed| - 1].value.length.None?
    ensures Layout(parsed, init).value.period == Horizon - 1
  {
    var m := |parsed| - 1;
    assert parsed[..m + 1] == parsed;
    PrefixStep(parsed, init, m);
    PlaceOpenEnd(parsed[m].value, Layout(parsed[..m], init).value);
  }

  /** A description whose last segment has no `for` runs that segment up to
      `current_period` 359, so its curve has `358 + n` values for `n`
      segments: 359 for `'6'`, 360 for `'.2 ramp 6 for 30, 6'`. */
  lemma CurveLengthOpenEnd(description: string)
    requires CprCurve(description).Success?
    requires var texts := Segments(description);
      ParseSegment(texts[|texts| - 1]).Success? && ParseSegment(texts[|texts| - 1]).value.length.None?
    ensures |CprCurve(description).value| == 358 + |Segments(description)|
  {
    var parsed := ParseAll(Segments(description));
    ParsedAt(Segments(description), |parsed| - 1);
    OpenEndPeriod(parsed, CurveState([], 1));
    LayoutShift(parsed, CurveState([], 1));
  }
}

=== FILE: py_float.dfy ===
/** Python's `float(word)` on the finite decimal literals it accepts:
    optional surrounding whitespace, an optional sign, digits with an optional
    decimal point (at least one digit in all), and an optional exponent.
    The whitespace is every `str.isspace()` character except U+001C..U+001F. */
module PyFloat {
  import opened Wrappers
  import opened RealPow
  import opened PyStr

  predicate IsDigit(c: char) {
    '0' <= c <= '9'
  }

  predicate AllDigits(s: string) {
    forall i :: 0 <= i < |s| ==> IsDigit(s[i])
  }

  predicate HasDigit(s: string) {
    exists i :: 0 <= i < |s| && IsDigit(s[i])
  }

  function DigitValue(c: char): nat
    requires IsDigit(c)
  {
    c as int - '0' as int
  }

  /** The length of the longest all-digit prefix of `s`. */
  function DigitRun(s: string): (n: nat)
    ensures n <= |s|
    ensures AllDigits(s[..n])
    ensures n == |s| || !IsDigit(s[n])
  {
    if s != [] && IsDigit(s[0]) then
      var n := 1 + DigitRun(s[1..]);
      assert s[..n] == [s[0]] + s[1..][..n - 1];
      n
    else 0
  }

  /** The natural number a digit string denotes, most significant digit first. */
  function DigitsValue(ds: string): nat
    requires AllDigits(ds)
  {
    if ds == [] then 0 else DigitsValue(ds[..|ds| - 1]) * 10 + DigitValue(ds[|ds| - 1])
  }

  /** `10 ** k` */
  function Pow10(k: nat): (r: real)
    ensures r > 0.0
  {
    PowSign(10.0, k);
    Pow(10.0, k)
  }

  /** The value `0.ds` of the digits `ds` after a decimal point. */
  function FractionValue(ds: string): real
    requires AllDigits(ds)
  {
    (DigitsValue(ds) as real) / Pow10(|ds|)
  }

  /** The characters a decimal literal is written with. */
  predicate LiteralChar(c: char) {
    IsDigit(c) || c == '.' || c == '+' || c == '-' || c == 'e' || c == 'E'
  }

  predicate LiteralChars(s: string) {
    forall i :: 0 <= i < |s| ==> LiteralChar(s[i])
  }

  /** The whitespace `float()` strips from the ends of its argument: every
      character `str.isspace()` accepts except the information separators
      U+001C..U+001F, which `float()` keeps and then rejects. */
  predicate FloatSpace(c: char) {
    IsSpace(c) && !(0x1C <= c as int <= 0x1F)
  }

  predicate HasInfoSeparator(w: string) {
    exists i :: 0 <= i < |w| && IsSpace(w[i]) && !FloatSpace(w[i])
  }

  /** The exponent part `e[+-]digits` (or nothing) applied to `mantissa`. */
  function ParseExponent(mantissa: real, t: string): (r: Option<real>)
    ensures r.Some? ==> LiteralChars(t)
  {
    if t == [] then Some(mantissa)
    else if t[0] != 'e' && t[0] != 'E' then None
    else
      var u := t[1..];
      var signed := u != [] && (u[0] == '+' || u[0] == '-');
      var ds := if signed then u[1..] else u;
      if ds == [] || !AllDigits(ds) then None
      else
        ExponentChars(t, signed);
        var scale := Pow10(DigitsValue(ds));
        Some(if signed && u[0] == '-' then mantissa / scale else mantissa * scale)
  }

  lemma ExponentChars(t: string, signed: bool)
    requires t != [] && (t[0] == 'e' || t[0] == 'E')
    requires signed ==> |t| >= 2 && (t[1] == '+' || t[1] == '-')
    requires AllDigits(if signed then t[2..] else t[1..])
    ensures LiteralChars(t)
  {
    forall i | 0 <= i < |t|
      ensures LiteralChar(t[i])
    {
      if i == 0 {
      } else if signed && i == 1 {
      } else if signed {
        assert t[i] == t[2..][i - 2];
      } else {
        assert t[i] == t[1..][i - 1];
      }
    }
  }

  /** Digits followed by literal characters are literal characters. */
  lemma DigitsThenLiteral(t: string, n: nat)
    requires n <= |t| && AllDigits(t[..n])
    ensures LiteralChars(t[n..]) ==> LiteralChars(t)
  {
    if LiteralChars(t[n..]) {
      forall i | 0 <= i < |t|
        ensures LiteralChar(t[i])
      {
        if i < n {
          assert t[i] == t[..n][i];
        } else {
          assert t[i] == t[n..][i - n];
        }
      }
    }
  }

  /** One literal character in front of literal characters. */
  lemma LiteralAfterFirst(t: string)
    requires t != [] && LiteralChar(t[0])
    ensures LiteralChars(t[1..]) ==> LiteralChars(t)
  {
    if LiteralChars(t[1..]) {
      forall i | 1 <= i < |t|
        ensures LiteralChar(t[i])
      {
        assert t[i] == t[1..][i - 1];
      }
    }
  }

  /** An unsigned literal: `digits [. [digits]] [exponent]` or `. digits [exponent]`. */
  function ParseUnsigned(t: string): (r: Option<real>)
    ensures r.Some? ==> HasDigit(t) && LiteralChars(t)
  {
    var n := DigitRun(t);
    var r := ParseAfterWhole(t[..n], t[n..]);
    DigitsLocated(t, n, r.Some?);
    DigitsThenLiteral(t, n);
    r
  }

  lemma HasDigitTail(t: string)
    requires t != [] && HasDigit(t[1..])
    ensures HasDigit(t)
  {
    var i :| 0 <= i < |t[1..]| && IsDigit(t[1..][i]);
    assert t[i + 1] == t[1..][i];
  }

  lemma PointDigits(rest: string, m: nat)
    requires rest != [] && m <= |rest[1..]| && AllDigits(rest[1..][..m])
    ensures m > 0 ==> HasDigit(rest)
  {
    if m > 0 {
      assert IsDigit(rest[1..][..m][0]);
      assert rest[1] == rest[1..][..m][0];
    }
  }

  /** A digit found before or after position `n` is a digit of `t`. */
  lemma DigitsLocated(t: string, n: nat, found: bool)
    requires n <= |t| && AllDigits(t[..n])
    requires found && n == 0 ==> HasDigit(t[n..])
    ensures found ==> HasDigit(t)
  {
    if found && n == 0 {
      var i :| 0 <= i < |t[n..]| && IsDigit(t[n..][i]);
      assert IsDigit(t[n + i]);
    } else if found {
      assert IsDigit(t[..n][0]);
    }
  }

  /** The rest of an unsigned literal once its leading digits `whole` are read. */
  function ParseAfterWhole(whole: string, rest: string): (r: Option<real>)
    requires AllDigits(whole)
    ensures r.Some? && whole == [] ==> HasDigit(rest)
    ensures r.Some? ==> LiteralChars(rest)
  {
    var w := DigitsValue(whole) as real;
    if rest != [] && rest[0] == '.' then
      var u := rest[1..];
      var m := DigitRun(u);
      if |whole| + m == 0 then None
      else
        PointDigits(rest, m);
        DigitsThenLiteral(u, m);
        LiteralAfterFirst(rest);
        ParseExponent(w + FractionValue(u[..m]), u[m..])
    else if whole == [] then None
    else ParseExponent(w, rest)
  }

  function ParseSigned(t: string): (r: Option<real>)
    ensures r.Some? ==> HasDigit(t) && LiteralChars(t)
  {
    if t != [] && (t[0] == '+' || t[0] == '-') then
      match ParseUnsigned(t[1..])
      case None => None
      case Some(x) =>
        HasDigitTail(t);
        LiteralAfterFirst(t);
        Some(if t[0] == '-' then -x else x)
    else ParseUnsigned(t)
  }

  /** `float(w)`: `None` where Python raises `ValueError`.  A word with no
      decimal digit at all, such as a keyword, is never a number, and a
      word `float()` reads holds nothing but literal characters and the
      whitespace `float()` strips. */
  function ParseFloat(w: string): (r: Option<real>)
    ensures !HasDigit(w) ==> r == None
    ensures r.Some? ==> forall i :: 0 <= i < |w| ==> LiteralChar(w[i]) || FloatSpace(w[i])
  {
    if HasInfoSeparator(w) then None
    else
      var t := Strip(w);
      var r := ParseSigned(t);
      if r.Some? then
        DigitsSurviveStrip(w, t);
        WordChars(w, t);
        r
      else r
  }

  /** A word framing literal characters in whitespace, and holding no
      information separator, is made of literal characters and `float()`
      whitespace. */
  lemma WordChars(w: string, t: string)
    requires t == Strip(w) && LiteralChars(t)
    requires !HasInfoSeparator(w)
    ensures forall i :: 0 <= i < |w| ==> LiteralChar(w[i]) || FloatSpace(w[i])
  {
    var k: nat :| Framed(w, k, t);
    forall i | 0 <= i < |w|
      ensures LiteralChar(w[i]) || FloatSpace(w[i])
    {
      if i < k {
        assert w[i] == w[..k][i];
      } else if i < k + |t| {
        FramedAt(w, k, t, i - k);
      } else {
        assert w[i] == w[k + |t|..][i - k - |t|];
      }
    }
  }

  /** Every character of `Strip(w)` is a character of `w`. */
  lemma DigitsSurviveStrip(w: string, t: string)
    requires t == Strip(w)
    requires HasDigit(t)
    ensures HasDigit(w)
  {
    var k: nat :| Framed(w, k, t);
    var i :| 0 <= i < |t| && IsDigit(t[i]);
    FramedAt(w, k, t, i);
    assert IsDigit(w[k + i]);
  }

  lemma FramedAt(w: string, k: nat, t: string, i: nat)
    requires Framed(w, k, t)
    requires i < |t|
    ensures k + i < |w| && w[k + i] == t[i]
  {
    var a, b := w[..k], w[k + |t|..];
    assert w == a + t + b;
    assert (a + t + b)[k + i] == t[i];
  }

  /** Python's `str(n)` for a natural number. */
  function ShowNat(n: nat): (s: string)
    ensures s != [] && AllDigits(s)
  {
    var d := ['0' + ((n % 10) as char)];
    if n < 10 then d else ShowNat(n / 10) + d
  }

  /** `str(n)` denotes `n`. */
  lemma {:induction false} ShowNatValue(n: nat)
    ensures DigitsValue(ShowNat(n)) == n
  {
    var s := ShowNat(n);
    if n >= 10 {
      ShowNatValue(n / 10);
      assert s[..|s| - 1] == ShowNat(n / 10);
    }
  }

  lemma {:induction false} DigitRunOfDigits(a: string, b: string)
    requires AllDigits(a)
    ensures DigitRun(a + b) == |a| + DigitRun(b)
  {
    if a != [] {
      assert (a + b)[1..] == a[1..] + b;
      DigitRunOfDigits(a[1..], b);
    } else {
      assert a + b == b;
    }
  }

  /** A string that neither starts nor ends with whitespace is left alone by `strip()`. */
  lemma StripTrimmed(s: string)
    requires s != [] && !IsSpace(s[0]) && !IsSpace(s[|s| - 1])
    ensures Strip(s) == s
  {
  }

  /** `float(str(n)) == n`: every natural written in decimal reads back as itself. */
  lemma ParseShowNat(n: nat)
    ensures ParseFloat(ShowNat(n)) == Some(n as real)
  {
    ParseFloatDigits(ShowNat(n));
    ShowNatValue(n);
  }

  /** `float(ds)` of a non-empty digit string is its value. */
  lemma ParseFloatDigits(s: string)
    requires s != [] && AllDigits(s)
    ensures ParseFloat(s) == Some(DigitsValue(s) as real)
  {
    assert IsDigit(s[0]) && IsDigit(s[|s| - 1]);
    ParseFloatPlain(s);
    ParseDigits(s);
  }

  /** An unsigned literal is split into its leading digits and the rest. */
  lemma ParseUnsignedSplit(ip: string, rest: string)
    requires AllDigits(ip)
    requires rest == [] || !IsDigit(rest[0])
    ensures ParseUnsigned(ip + rest) == ParseAfterWhole(ip, rest)
  {
    var t := ip + rest;
    DigitRunOfDigits(ip, rest);
    assert DigitRun(rest) == 0;
    assert t[..|ip|] == ip;
    assert t[|ip|..] == rest;
  }

  /** A non-empty digit string denotes its value. */
  lemma ParseDigits(s: string)
    requires s != [] && AllDigits(s)
    ensures ParseUnsigned(s) == Some(DigitsValue(s) as real)
  {
    ParseUnsignedSplit(s, []);
    assert s + [] == s;
  }

  lemma {:induction false} DigitRunAll(u: string)
    requires AllDigits(u)
    ensures DigitRun(u) == |u|
  {
    if u != [] {
      DigitRunAll(u[1..]);
    }
  }

  lemma AfterWholeDecimal(ip: string, rest: string)
    requires AllDigits(ip)
    requires rest != [] && rest[0] == '.' && AllDigits(rest[1..])
    requires |ip| + |rest| >= 2
    ensures ParseAfterWhole(ip, rest) == Some(DigitsValue(ip) as real + FractionValue(rest[1..]))
  {
    var u := rest[1..];
    DigitRunAll(u);
    assert u[..|u|] == u;
    assert u[|u|..] == [];
  }

  /** A literal made of the digits `ip`, a decimal point and the digits
      `fp` (not both empty) denotes `ip + fp / 10^|fp|`, as in
      `float('.2') == 0.2`. */
  lemma ParseDecimal(ip: string, pointed: string)
    requires AllDigits(ip)
    requires pointed != [] && pointed[0] == '.' && AllDigits(pointed[1..])
    requires |ip| + |pointed| >= 2
    ensures ParseUnsigned(ip + pointed) == Some(DigitsValue(ip) as real + FractionValue(pointed[1..]))
  {
    ParseUnsignedSplit(ip, pointed);
    AfterWholeDecimal(ip, pointed);
  }

  /** `float()` of a word with no surrounding whitespace and no sign is
      the unsigned literal reading. */
  lemma ParseFloatPlain(w: string)
    requires w != [] && !IsSpace(w[0]) && !IsSpace(w[|w| - 1])
    requires w[0] != '+' && w[0] != '-'
    ensures ParseFloat(w) == ParseUnsigned(w)
  {
    StripTrimmed(w);
    ParseFloatStripped(w);
    UnsignedWord(w);
    LiteralNoSeparator(w);
  }

  lemma ParseFloatStripped(w: string)
    ensures HasInfoSeparator(w) ==> ParseFloat(w) == None
    ensures !HasInfoSeparator(w) ==> ParseFloat(w) == ParseSigned(Strip(w))
  {
  }

  lemma UnsignedWord(w: string)
    requires w != [] && w[0] != '+' && w[0] != '-'
    ensures ParseSigned(w) == ParseUnsigned(w)
  {
  }

  /** Literal characters are never information separators. */
  lemma LiteralNoSeparator(w: string)
    ensures LiteralChars(w) ==> !HasInfoSeparator(w)
  {
    if LiteralChars(w) && HasInfoSeparator(w) {
      var i :| 0 <= i < |w| && IsSpace(w[i]) && !FloatSpace(w[i]);
      assert LiteralChar(w[i]);
    }
  }

  /** The same literal read by `float()`. */
  lemma ParseFloatDecimal(ip: string, pointed: string)
    requires AllDigits(ip)
    requires pointed != [] && pointed[0] == '.' && AllDigits(pointed[1..])
    requires |ip| + |pointed| >= 2
    ensures ParseFloat(ip + pointed) == Some(DigitsValue(ip) as real + FractionValue(pointed[1..]))
  {
    DecimalEnds(ip, pointed);
    ParseFloatPlain(ip + pointed);
    ParseDecimal(ip, pointed);
  }

  /** Such a literal starts and ends with a digit or the point, so it has
      no sign and nothing for `strip()` to remove. */
  lemma DecimalEnds(ip: string, pointed: string)
    requires AllDigits(ip)
    requires pointed != [] && pointed[0] == '.' && AllDigits(pointed[1..])
    ensures var w := ip + pointed;
      (w[0] == '.' || IsDigit(w[0])) && (w[|w| - 1] == '.' || IsDigit(w[|w| - 1]))
  {
    var w := ip + pointed;
    if ip != [] {
      assert w[0] == ip[0];
    }
    if |pointed| > 1 {
      assert w[|w| - 1] == pointed[1..][|pointed| - 2];
    }
  }
}

=== FILE: py_str.dfy ===
/** The two Python string builtins the curve parser relies on: `str.strip()`
    with no argument and `str.split(sep)` with a one-character separator. */
module PyStr {

  /** The characters `str.isspace()` accepts, which are the ones `str.strip()`
      removes from both ends. */
  predicate IsSpace(c: char) {
    var n := c as int;
    || 0x09 <= n <= 0x0D || 0x1C <= n <= 0x20
    || n == 0x85 || n == 0xA0 || n == 0x1680
    || 0x2000 <= n <= 0x200A
    || n == 0x2028 || n == 0x2029 || n == 0x202F || n == 0x205F || n == 0x3000
  }

  predicate AllSpace(s: string) {
    forall i :: 0 <= i < |s| ==> IsSpace(s[i])
  }

  /** `s.lstrip()`: the suffix left after dropping leading whitespace. */
  function StripLeft(s: string): (r: string)
    ensures |r| <= |s| && r == s[|s| - |r|..]
    ensures AllSpace(s[..|s| - |r|])
    ensures r == [] || !IsSpace(r[0])
  {
    if s != [] && IsSpace(s[0]) then
      var r := StripLeft(s[1..]);
      assert s[..|s| - |r|] == [s[0]] + s[1..][..|s[1..]| - |r|];
      r
    else s
  }

  /** `s.rstrip()`: the prefix left after dropping trailing whitespace. */
  function StripRight(s: string): (r: string)
    ensures |r| <= |s| && r == s[..|r|]
    ensures AllSpace(s[|r|..])
    ensures r == [] || !IsSpace(r[|r| - 1])
  {
    if s != [] && IsSpace(s[|s| - 1]) then
      var r := StripRight(s[..|s| - 1]);
      assert s[|r|..] == s[..|s| - 1][|r|..] + [s[|s| - 1]];
      r
    else s
  }

  /** `r` sits in `s` at offset `i` with only whitespace around it. */
  predicate Framed(s: string, i: nat, r: string) {
    && i + |r| <= |s|
    && s == s[..i] + r + s[i + |r|..]
    && AllSpace(s[..i])
    && AllSpace(s[i + |r|..])
  }

  /** Left-stripping to `t` and then right-stripping to `r` frames `r` in `s`. */
  lemma StripFrames(s: string, t: string, r: string)
    requires |t| <= |s| && t == s[|s| - |t|..] && AllSpace(s[..|s| - |t|])
    requires |r| <= |t| && r == t[..|r|] && AllSpace(t[|r|..])
    ensures Framed(s, |s| - |t|, r)
  {
    var i := |s| - |t|;
    assert s[i + |r|..] == t[|r|..];
    assert s == s[..i] + r + s[i + |r|..] by {
      assert s == s[..i] + t;
      assert t == r + t[|r|..];
    }
  }

  /** `s.strip()`: `s` is `r` framed by whitespace on both sides, and `r`
      itself neither starts nor ends with whitespace. */
  function Strip(s: string): (r: string)
    ensures r == [] || (!IsSpace(r[0]) && !IsSpace(r[|r| - 1]))
    ensures exists i: nat :: Framed(s, i, r)
  {
    var t := StripLeft(s);
    var r := StripRight(t);
    assert r == [] || r[0] == t[0];
    StripFrames(s, t, r);
    r
  }

  /** `sep.join(pieces)`. */
  function Join(pieces: seq<string>, sep: char): string
    requires |pieces| >= 1
  {
    if |pieces| == 1 then pieces[0] else pieces[0] + [sep] + Join(pieces[1..], sep)
  }

  /** `s.split(sep)`: the maximal `sep`-free pieces between separators, one
      more piece than there are separators, which `Join` puts back together. */
  function Split(s: string, sep: char): (r: seq<string>)
    ensures |r| == multiset(s)[sep] + 1
    ensures forall i :: 0 <= i < |r| ==> sep !in r[i]
    ensures Join(r, sep) == s
  {
    if s == [] then [[]]
    else
      var rest := Split(s[1..], sep);
      PlaceCount(s, rest, sep);
      PlaceFree(s[0], rest, sep);
      PlaceJoin(s[0], rest, sep);
      assert s == [s[0]] + s[1..];
      SplitPlace(s[0], rest, sep)
  }

  /** Placing one more character in front of the pieces of a split. */
  function SplitPlace(c: char, rest: seq<string>, sep: char): seq<string>
    requires |rest| >= 1
  {
    if c == sep then [[]] + rest else [[c] + rest[0]] + rest[1..]
  }

  lemma PlaceCount(s: string, rest: seq<string>, sep: char)
    requires s != []
    requires |rest| == multiset(s[1..])[sep] + 1
    ensures |SplitPlace(s[0], rest, sep)| == multiset(s)[sep] + 1
  {
    assert s == [s[0]] + s[1..];
    assert multiset(s) == multiset([s[0]]) + multiset(s[1..]);
  }

  lemma PlaceFree(c: char, rest: seq<string>, sep: char)
    requires |rest| >= 1
    requires forall i :: 0 <= i < |rest| ==> sep !in rest[i]
    ensures forall i :: 0 <= i < |SplitPlace(c, rest, sep)| ==> sep !in SplitPlace(c, rest, sep)[i]
  {
    var r := SplitPlace(c, rest, sep);
    if c == sep {
      assert forall i :: 1 <= i < |r| ==> r[i] == rest[i - 1];
    } else {
      assert forall i :: 1 <= i < |r| ==> r[i] == rest[i];
      assert r[0] == [c] + rest[0];
    }
  }

  lemma PlaceJoin(c: char, rest: seq<string>, sep: char)
    requires |rest| >= 1
    ensures Join(SplitPlace(c, rest, sep), sep) == [c] + Join(rest, sep)
  {
    var r := SplitPlace(c, rest, sep);
    if c == sep {
      assert r[1..] == rest;
    } else {
      assert r[1..] == rest[1..];
    }
  }

  /** One step of `Split`: how the first character is placed. */
  lemma SplitCons(c: char, t: string, sep: char)
    ensures Split([c] + t, sep) == SplitPlace(c, Split(t, sep), sep)
  {
    assert ([c] + t)[1..] == t;
  }

  /** Splitting undoes joining, as long as no piece holds the separator. */
  lemma {:induction false} SplitJoin(pieces: seq<string>, sep: char)
    requires |pieces| >= 1
    requires forall i :: 0 <= i < |pieces| ==> sep !in pieces[i]
    ensures Split(Join(pieces, sep), sep) == pieces
    decreases |pieces|, |pieces[0]|, 1
  {
    if |pieces| == 1 {
      SplitFree(pieces[0], sep);
    } else if pieces[0] == [] {
      SplitJoinEmptyHead(pieces, sep);
    } else {
      SplitJoinLongHead(pieces, sep);
    }
  }

  lemma {:induction false} SplitJoinEmptyHead(pieces: seq<string>, sep: char)
    requires |pieces| >= 2 && pieces[0] == []
    requires forall i :: 0 <= i < |pieces| ==> sep !in pieces[i]
    ensures Split(Join(pieces, sep), sep) == pieces
    decreases |pieces|, |pieces[0]|, 0
  {
    var tail := pieces[1..];
    assert pieces == SplitPlace(sep, tail, sep);
    PlaceJoin(sep, tail, sep);
    SplitJoin(tail, sep);
    SplitCons(sep, Join(tail, sep), sep);
  }

  lemma {:induction false} SplitJoinLongHead(pieces: seq<string>, sep: char)
    requires |pieces| >= 2 && pieces[0] != []
    requires forall i :: 0 <= i < |pieces| ==> sep !in pieces[i]
    ensures Split(Join(pieces, sep), sep) == pieces
    decreases |pieces|, |pieces[0]|, 0
  {
    var p := pieces[0];
    var shorter := [p[1..]] + pieces[1..];
    assert p[0] != sep;
    assert pieces == SplitPlace(p[0], shorter, sep) by {
      assert p == [p[0]] + p[1..];
      assert shorter[1..] == pieces[1..];
    }
    PlaceJoin(p[0], shorter, sep);
    assert forall i :: 1 <= i < |shorter| ==> shorter[i] == pieces[i];
    SplitJoin(shorter, sep);
    SplitCons(p[0], Join(shorter, sep), sep);
  }

  /** A string without the separator splits into itself alone. */
  lemma {:induction false} SplitFree(s: string, sep: char)
    requires sep !in s
    ensures Split(s, sep) == [s]
  {
    if s != [] {
      assert sep !in s[1..];
      SplitFree(s[1..], sep);
      assert s == [s[0]] + s[1..];
    }
  }
}

=== FILE: real_pow.dfy ===
/** Integer powers of reals: Python's `x ** n` for a float `x` and an int
    `n >= 0`, evaluated exactly. */
module RealPow {

  function Pow(x: real, n: nat): real {
    if n == 0 then 1.0 else x * Pow(x, n - 1)
  }

  /** A positive base has a positive power, a non-negative one a non-negative power. */
  lemma {:induction false} PowSign(x: real, n: nat)
    ensures x >= 0.0 ==> Pow(x, n) >= 0.0
    ensures x > 0.0 ==> Pow(x, n) > 0.0
  {
    if n > 0 {
      PowSign(x, n - 1);
      var p := Pow(x, n - 1);
      if x > 0.0 {
        MulLeftStrict(x, 0.0, p);
      } else if x >= 0.0 {
        MulLeft(x, 0.0, p);
      }
    }
  }

  /** Multiplying by a non-negative factor preserves `<=`. */
  lemma MulLeft(c: real, a: real, b: real)
    requires c >= 0.0
    requires a <= b
    ensures c * a <= c * b
  {
    assert c * b - c * a == c * (b - a);
  }

  /** Multiplying by a positive factor preserves `<`. */
  lemma MulLeftStrict(c: real, a: real, b: real)
    requires c > 0.0
    requires a < b
    ensures c * a < c * b
  {
    assert c * b - c * a == c * (b - a);
  }

  lemma {:induction false} PowAdd(x: real, a: nat, b: nat)
    ensures Pow(x, a + b) == Pow(x, a) * Pow(x, b)
    decreases a
  {
    var q := Pow(x, b);
    if a == 0 {
      assert a + b == b;
      assert Pow(x, a) == 1.0;
      assert 1.0 * q == q;
    } else {
      PowAdd(x, a - 1, b);
      var p := Pow(x, a - 1);
      assert Pow(x, a + b) == x * Pow(x, a - 1 + b);
      assert Pow(x, a) == x * p;
      assert x * (p * q) == (x * p) * q;
    }
  }

  /** x ** (n + 1) == (x ** n) * x: peeling the last factor. */
  lemma PowSucc(x: real, n: nat)
    ensures Pow(x, n + 1) == Pow(x, n) * x
  {
    PowAdd(x, n, 1);
  }

  lemma {:induction false} PowOne(n: nat)
    ensures Pow(1.0, n) == 1.0
  {
    if n > 0 {
      PowOne(n - 1);
    }
  }

  /** Bernoulli's inequality for a non-negative increment. */
  lemma {:induction false} Bernoulli(x: real, n: nat)
    requires x >= 0.0
    ensures Pow(1.0 + x, n) >= 1.0 + (n as real) * x
  {
    if n > 0 {
      Bernoulli(x, n - 1);
      var k := (n - 1) as real;
      var p := Pow(1.0 + x, n - 1);
      assert Pow(1.0 + x, n) == (1.0 + x) * p;
      MulLeft(1.0 + x, 1.0 + k * x, p);
      assert (1.0 + x) * (1.0 + k * x) == 1.0 + (k + 1.0) * x + (k * x) * x;
      MulLeft(k, 0.0, x);
      MulLeft(x, 0.0, k * x);
      assert (k * x) * x == x * (k * x);
      assert n as real == k + 1.0;
      calc {
        Pow(1.0 + x, n);
      ==
        (1.0 + x) * p;
      >=
        (1.0 + x) * (1.0 + k * x);
      ==
        1.0 + (k + 1.0) * x + (k * x) * x;
      >=
        1.0 + (k + 1.0) * x;
      ==
        1.0 + (n as real) * x;
      }
    }
  }

  /** For a non-negative base, x ** n is strictly increasing in x (n >= 1). */
  lemma {:induction false} PowStrictlyIncreasing(a: real, b: real, n: nat)
    requires 0.0 <= a < b
    requires n >= 1
    ensures Pow(a, n) < Pow(b, n)
  {
    var pa, pb := Pow(a, n - 1), Pow(b, n - 1);
    assert Pow(a, n) == a * pa;
    assert Pow(b, n) == b * pb;
    if n > 1 {
      PowStrictlyIncreasing(a, b, n - 1);
    }
    assert pa <= pb;
    MulLeft(a, pa, pb);
    PowSign(b, n - 1);
    MulLeftStrict(pb, a, b);
    calc {
      Pow(a, n);
    ==
      a * pa;
    <=
      a * pb;
    == 
      pb * a;
    <
      pb * b;
    ==
      b * pb;
    ==
      Pow(b, n);
    }
  }

  /** x ** n == 1 with n >= 1 forces x == 1 when the base is positive. */
  lemma PowEqualsOne(x: real, n: nat)
    requires x >= 0.0
    requires n >= 1
    requires Pow(x, n) == 1.0
    ensures x == 1.0
  {
    PowOne(n);
    if x < 1.0 {
      PowStrictlyIncreasing(x, 1.0, n);
    } else if x > 1.0 {
      PowStrictlyIncreasing(1.0, x, n);
    }
  }
}

=== FILE: scheduled_balances.dfy ===
/** The scheduled balance of a level-payment loan as a share of its
    original balance, in closed form: after `age` of `nper` payments at
    periodic rate `rate` the share outstanding is
    `1 - ((1 + rate) ** age - 1) / ((1 + rate) ** nper - 1)`. */
module ScheduledBalances {
  import opened Wrappers
  import opened RealPow

  datatype BalanceError = ZeroDivision

  /** `scheduled_balance_percent_for_period`: the share of the original
      balance still scheduled after `age` periods.  Python raises
      `ZeroDivisionError` when `(1 + rate) ** nper == 1`. */
  function BalancePercent(rate: real, nper: nat, age: nat): (r: Result<real, BalanceError>)
    ensures r.Success? && age == 0 ==> r.value == 1.0
    ensures r.Success? && age == nper ==> r.value == 0.0
  {
    var denominator := Pow(1.0 + rate, nper) - 1.0;
    if denominator == 0.0 then Failure(ZeroDivision)
    else Success(1.0 - (Pow(1.0 + rate, age) - 1.0) / denominator)
  }

  /** For a rate above -100% the percentage is defined exactly when the
      rate is not zero and there is at least one period. */
  lemma BalancePercentDefined(rate: real, nper: nat, age: nat)
    requires rate >= -1.0
    ensures BalancePercent(rate, nper, age).Success? <==> rate != 0.0 && nper >= 1
  {
    if nper >= 1 && Pow(1.0 + rate, nper) == 1.0 {
      PowEqualsOne(1.0 + rate, nper);
    }
    if rate == 0.0 {
      PowOne(nper);
    }
  }

  /** At a positive rate the scheduled share falls as the loan ages. */
  lemma BalancePercentFalls(rate: real, nper: nat, age: nat)
    requires rate > 0.0 && nper >= 1 && age < nper
    ensures BalancePercent(rate, nper, age).Success? && BalancePercent(rate, nper, age + 1).Success?
    ensures BalancePercent(rate, nper, age + 1).value < BalancePercent(rate, nper, age).value
  {
    var x := 1.0 + rate;
    BalancePercentDefined(rate, nper, age);
    BalancePercentDefined(rate, nper, age + 1);
    PowGrows(x, age);
    assert Pow(x, nper) > 1.0 by {
      PowStrictlyIncreasing(1.0, x, nper);
      PowOne(nper);
    }
    SharesOrdered(Pow(x, age), Pow(x, age + 1), Pow(x, nper) - 1.0);
  }

  /** Above 1, each further power is larger than the one before. */
  lemma PowGrows(x: real, n: nat)
    requires x > 1.0
    ensures Pow(x, n) < Pow(x, n + 1)
  {
    var a := Pow(x, n);
    PowSucc(x, n);
    PowSign(x, n);
    MulLeftStrict(a, 1.0, x);
    assert a * 1.0 == a;
  }

  lemma SharesOrdered(a: real, b: real, d: real)
    requires d > 0.0 && a < b
    ensures 1.0 - (b - 1.0) / d < 1.0 - (a - 1.0) / d
  {
    assert (b - 1.0) / d - (a - 1.0) / d == (b - a) / d;
  }

  /** A row of the scheduled-balance table. */
  datatype ScheduledRow = ScheduledRow(period: nat, balance: real, percent: real)

  /** `scheduled_balances`: periods `0 .. nper`, each with its scheduled
      share (`bal_percent`) and that share of `pv`. */
  function Schedule(rate: real, nper: nat, pv: real): (r: Result<seq<ScheduledRow>, BalanceError>)
    ensures r.Success? <==> BalancePercent(rate, nper, 0).Success?
    ensures r.Success? ==> |r.value| == nper + 1
    ensures r.Success? ==> r.value[0].balance == pv && r.value[nper].balance == 0.0
    ensures r.Success? ==> forall k :: 0 <= k <= nper ==>
      r.value[k].period == k &&
      BalancePercent(rate, nper, k) == Success(r.value[k].percent) &&
      r.value[k].balance == r.value[k].percent * pv
  {
    if Pow(1.0 + rate, nper) - 1.0 == 0.0 then Failure(ZeroDivision)
    else
      Success(seq(nper + 1, k requires 0 <= k <= nper =>
        var percent := BalancePercent(rate, nper, k).value;
        ScheduledRow(k, percent * pv, percent)))
  }
}

=== FILE: wrappers.dfy ===
/** Failure-carrying result types shared by the model.  A Python exception
    raised by the modelled code becomes a `Failure` carrying the reason. */
module Wrappers {

  datatype Option<+T> = None | Some(value: T)

  datatype Result<+R, +E> = Success(value: R) | Failure(error: E) {

    predicate IsFailure() {
      Failure?
    }

    function PropagateFailure<U>(): Result<U, E>
      requires Failure?
    {
      Failure(error)
    }

    function Extract(): R
      requires Success?
    {
      value
    }
  }
}
